=== FILE: README.md ===
# Wordstat collector — a verified model of the content script

The Yandex Wordstat collector is a browser extension. Its content script,
`content.js`, decorates the phrases on the Wordstat results page. Each phrase
gets a "+"/"−" button that adds or removes it as a *key phrase*. Each word gets
a button that adds or removes it as a *minus word*. The script keeps both lists
together with the indexes that make lookups cheap. It warns when a phrase being
collected contains a collected minus word.

This project models the logic of that script in Dafny:

- **Normalizers** (module `Normalize`, with character classes in `Chars`):
  - the key of a minus word: leading `!`/`+` operators stripped, then lower-cased;
  - the key of a phrase: whitespace collapsed and trimmed;
  - the prefixes added to a stored minus word;
  - the key and the display form of a token;
  - the phrase shown in a result row;
  - the batch splitter of the "add" panel.
- **The collection store** (module `Store`): the two lists, their three indexes
  (`phraseSet`, `minusSet`, `minusToStored`, where the first spelling of a key
  wins) and every mutator. These are `addPhrase`, `removePhrase`,
  `addMinusWord`, `removeMinusByBase`, `removeStoredItem`, `clearActiveList`
  and the batch add, plus boot, with its legacy migration and mode sanitation.
  The generic index constructions live in `Index`, the sequence helpers in
  `Seqs`.
- **Conflict detection** (module `Conflicts`): `phraseMinusHits`.
- **Mode gating and views** (module `Views`):
  - the effective mode, including the temporary minus mode while Shift is held;
  - the token click and the token's displayed state;
  - the phrase click with its optional warning modal and the remembered
    "don't ask again" flag, and the phrase button's displayed state;
  - the keyboard and settings handlers as an event machine.
- **Decoration** (module `Decoration`): `processPhraseAnchor` on an abstract
  node (processed flag, phrase mark, children) and the filter of
  `scanAndInject`.

The state is an immutable `Store.State`. Every handler is a pure function from
state to state, so "nothing else changes" is stated as equalities between
fields. The predicate `Store.Valid` says that the indexes are what the
`rebuild…Index` functions would compute from the lists. Every mutator preserves
it.

`applyPrefixes` is not idempotent: it checks only the first character, so `"+!w"` with both prefixes enabled becomes
`"+!+!w"`. The model follows the code (`Normalize.LemmaApplyPrefixesNotIdempotent`).
Every caller passes a word already stripped by `normalizeBase`, so the
difference never shows. `Normalize.LemmaApplyPrefixesShape` proves what
happens on such a word.

Two behaviours of the code are worth knowing. Both are proved, not corrected,
because nothing in the code or its comments says they are unintended:

- Lists loaded from storage can hold two spellings with one key, such as
  `"w"` and `"W"`. `removeMinusByBase` then removes only the indexed spelling,
  and the key stays in `minusSet` (`Store.LemmaRemoveMinusDuplicateKeyStays`,
  `Store.LemmaDuplicateSpellingsExist`).
- A decorated node's text content starts with the warning glyph and a button
  caption. A phrase derived from that text again therefore differs from the
  original (`Decoration.LemmaRebuiltTextGainsGlyph`). The mark check at
  `content.js:924` and the href-first order of `content.js:101-109` keep the
  scan from re-deriving the phrase from decorated text.

## Model

| member | source | states |
|---|---|---|
| Chars.Lower | content.js:57-59 | every capital letter of ASCII, Latin-1 and basic Cyrillic becomes its small letter, no result is a capital, every other character stays, and markers and whitespace are kept |
| Chars.LemmaLowerIdempotent | content.js:57-59 | lower-casing twice is lower-casing once |
| Normalize.LemmaLowerStringIdempotent | content.js:57-59 | lower-casing a string twice is lower-casing it once |
| Normalize.NormalizeBase | content.js:47-51 | the result is the word minus a leading run made only of `!`/`+`, and the result does not start with one |
| Normalize.LemmaNormalizeBaseIgnoresMarkers | content.js:47-51 | any prefix of `!`/`+` characters leaves the base unchanged |
| Normalize.LemmaNormalizeBaseIdempotent | content.js:47-51 | stripping operators twice is stripping them once |
| Normalize.LowerString | content.js:57-59 | the model's lower-casing applies `Chars.Lower` to each character, so it keeps the length |
| Normalize.NormalizeMinusKey | content.js:57-59 | the minus key is the base lower-cased letter by letter: it has the base's length, each character is the lower case of the base's character there, it never starts with an operator and contains no capital letter |
| Normalize.LemmaMinusKeyEqualIff | content.js:57-59 | two words share a minus key if and only if their bases have the same length and agree letter by letter up to case |
| Normalize.LemmaBaseOfLower | content.js:57-59 | lower-casing and stripping operators commute |
| Normalize.LemmaMinusKeyIgnoresCase | content.js:57-59 | a word and its lower-cased form have the same minus key |
| Normalize.LemmaMinusKeyCaseInsensitive | content.js:57-59 | two words that agree letter by letter up to case have the same minus key |
| Normalize.LemmaMinusKeyIgnoresMarkers | content.js:57-59 | operators in front of a word do not change its minus key |
| Normalize.LemmaMinusKeyOfBase | content.js:57-59 | the key of the base equals the key of the word |
| Normalize.ApplyPrefixes | content.js:61-67 | the stored form is the base with nothing, `!`, `+` or `+!` in front |
| Normalize.PrependUnlessPresent | content.js:63-66 | the marker is prepended exactly when its option is on and the word does not already start with it |
| Normalize.LemmaApplyPrefixesKeepsBase | content.js:61-67 | adding prefixes never changes the word's base |
| Normalize.LemmaApplyPrefixesShape | content.js:61-67 | on an operator-free base the result is `+` (if enabled), then `!` (if enabled), then the base |
| Normalize.LemmaStoredFormKeepsKey | content.js:179-186 | the stored spelling of a minus word has the same key as the clicked word |
| Normalize.LemmaApplyPrefixesNotIdempotent | content.js:61-67 | prefixing an already prefixed word adds the prefixes again |
| Normalize.TokenKey | content.js:69-75 | with stripping off the key is the raw word; with it on, a leading run of `+` is removed and the base stays the same |
| Normalize.LemmaDropPlusKeepsBase | content.js:69-75 | removing leading `+` never changes the base |
| Normalize.TokenMinusKey | content.js:69-75 | the minus key of a token does not depend on the strip-plus setting |
| Normalize.Trim | content.js:53-55 | the trimmed string has no outer whitespace, is empty exactly when the input is all whitespace, and a string without outer whitespace is unchanged |
| Normalize.SplitWords | content.js:82-84 | every word is a nonempty run of non-whitespace characters |
| Normalize.NormalizePhrase | content.js:53-55 | the phrase key is the phrase's words joined by single spaces |
| Normalize.LemmaNormalizePhraseShape | content.js:53-55 | a phrase key has no outer whitespace, no whitespace other than plain spaces, and no two spaces in a row |
| Normalize.LemmaNormalizePhraseIsJoinedWords | content.js:53-55 | collapsing then trimming equals joining the words with single spaces |
| Normalize.LemmaNormalizePhraseKeeps | content.js:53-55 | normalization introduces no character other than a space |
| Normalize.LemmaNormalizePhraseIdempotent | content.js:53-55 | normalizing a phrase key again leaves it unchanged |
| Normalize.LemmaSplitNormalizedPhrase | content.js:53-55 | a phrase and its key have the same words |
| Normalize.BlankOperators | content.js:101-109 | every `+`, `−` or `-` becomes a space and every other character stays |
| Normalize.PhraseFromText | content.js:101-109 | the phrase taken from a row's text is normalized (a fixpoint of phrase normalization), contains no operator glyph, and has the words of the blanked text |
| Normalize.CurrentPhrase | content.js:101-109 | a phrase from the link wins; otherwise the text fallback gives a normalized phrase; a trimmed link phrase gives a trimmed result |
| Normalize.SplitBatch | content.js:440-443 | whitespace-only input is reported as empty; otherwise every item is nonempty, trimmed and free of separators |
| Normalize.LemmaSplitBatchOfJoin | content.js:440-443 | joining valid items with any separator and splitting gives back the items |
| Normalize.LemmaTrimItemsKeepsItems | content.js:443 | trimming and filtering leave already valid items as they are |
| Seqs.LemmaFilterAppend | content.js:172 | filtering distributes over concatenation, so the entries a removal keeps stay in their original order |
| Index.DropKey | content.js:172 | exactly the elements whose key differs from the removed key remain, and a list without that key is unchanged |
| Index.DropValue | content.js:199-200 | exactly the elements different from the removed value remain, and a list without it is unchanged |
| Index.KeySet | content.js:121-127 | the set holds exactly the accepted keys of some element |
| Index.FirstByKey | content.js:129-140 | the map's domain is exactly the accepted keys of some element, and each key maps to its first element |
| Index.LemmaIndexedIsFirst | content.js:129-140 | every indexed spelling is the first element with its key |
| Index.LemmaFirstByKeyAppend | content.js:129-140 | appending an element with a new key adds exactly that key with that element |
| Index.LemmaKeySetDropKey | content.js:169-177 | dropping every element with a key removes exactly that key from the key set |
| Index.LemmaDropKeyConcat | content.js:172 | dropping a key from a concatenation drops it from each part, so the kept elements stay in order |
| Index.LemmaDropValueConcat | content.js:199-200 | dropping a value from a concatenation drops it from each part, so the kept elements stay in order |
| Index.LemmaDropIndexedValue | content.js:195-205 | with distinct keys, dropping the indexed spelling removes exactly its key |
| Store.WithPhrases | content.js:121-127 | replacing the phrase list and rebuilding its index keeps the state valid and touches nothing on the minus side |
| Store.WithMinusWords | content.js:129-140 | replacing the minus list and rebuilding its index keeps the state valid and touches nothing on the phrase side |
| Store.AddPhrase | content.js:154-167 | an empty key is rejected, an indexed key is left alone, and otherwise the key is appended and indexed; minus side and settings unchanged |
| Store.LemmaAddPhraseIndex | content.js:154-167 | after adding, the phrase index is the old index plus the nonempty key |
| Store.LemmaAddPhraseKeepsUnique | content.js:154-167 | adding never creates two phrases with one key |
| Store.RemovePhrase | content.js:169-177 | an empty or unindexed key changes nothing; the minus side and settings never change |
| Store.LemmaRemovePhraseFilters | content.js:169-177 | removing a collected phrase filters its key out of the list; at any split point the kept phrases before and after stay in order |
| Store.LemmaRemovePhraseDrops | content.js:169-177 | removing keeps exactly the phrases with another key and takes the key out of the index |
| Store.LemmaAddRemovePhrase | content.js:154-177 | removing a newly added phrase restores the phrase list and its index |
| Store.LemmaRemovePhraseKeepsUnique | content.js:169-177 | removing keeps phrase keys distinct |
| Store.StoredForm | content.js:186 | the stored spelling has the key of the clicked word |
| Store.AddMinusWord | content.js:179-193 | an empty key is rejected, an indexed key is left alone, and otherwise the prefixed spelling is appended and indexed; phrase side and settings unchanged |
| Store.LemmaAddMinusWordStores | content.js:179-193 | an added key maps to the stored spelling |
| Store.LemmaAddMinusWordIndex | content.js:179-193 | after adding, the minus index is the old index plus the nonempty key |
| Store.LemmaAddMinusKeepsUnique | content.js:179-193 | adding never creates two minus words with one key |
| Store.RemoveMinusByBase | content.js:195-205 | an empty or unindexed key changes nothing; otherwise exactly the indexed spelling leaves the list; the phrase side and settings never change |
| Store.LemmaRemoveMinusRemovesKey | content.js:195-205 | with distinct keys, removal takes exactly that key out of the minus index |
| Store.LemmaRemoveMinusDuplicateKeyStays | content.js:195-205 | with two spellings of one key, removal drops the first and the key stays indexed |
| Store.LemmaDuplicateSpellingsExist | content.js:1001-1012 | boot accepts a stored list holding two spellings of one key |
| Store.LemmaAddRemoveMinus | content.js:179-205 | removing a newly added minus word restores the minus list and its index |
| Store.LemmaRemoveMinusKeepsUnique | content.js:195-205 | removal keeps minus keys distinct |
| Store.RemoveStoredItem | content.js:207-222 | the active list loses exactly the entries equal to the stored value, filtered in place, and the other list stays as it was |
| Store.LemmaRemoveStoredKeepsOrder | content.js:207-222 | deleting an entry keeps the other entries of the active list in their order |
| Store.LemmaRemoveStoredKeepsUnique | content.js:207-222 | deleting a list entry keeps keys distinct in both lists |
| Store.ClearActiveList | content.js:224-240 | the active list and its index are emptied, and the other list is untouched; clearing phrases re-arms the warning |
| Store.AddPhrases | content.js:444-445 | adding items one by one extends the phrase list and adds exactly their nonempty keys to the index |
| Store.AddMinusWords | content.js:446-447 | adding items one by one extends the minus list and adds exactly their nonempty keys to the index |
| Store.AddBatch | content.js:440-448 | empty input changes nothing; otherwise the items' keys join the active list's index and the other list is untouched |
| Store.SanitizeMode | content.js:1027 | the mode is minus exactly when the stored mode is "minus" |
| Store.MergeSettings | content.js:1021-1027 | without saved settings the defaults apply; otherwise each of the five flags takes its saved value when there is one and its default when not, and the mode is minus only for "minus" |
| Store.MigratedMinus | content.js:1002-1009 | a nonempty stored minus list is kept; otherwise the legacy word list, or nothing, becomes the minus list |
| Store.Boot | content.js:992-1027 | the loaded state is valid with Shift released and merged settings; phrases as stored, minus words migrated from the legacy list when the stored list is missing or empty |
| Conflicts.AddHit | content.js:263-266 | a hit is added once, only if its key is nonempty and indexed |
| Conflicts.LemmaCollectHitsMember | content.js:260-268 | a key is among the hits exactly when it was already found, or it is nonempty, indexed and carried by some word |
| Conflicts.PhraseMinusHits | content.js:260-268 | the hits have no repeats and are exactly the nonempty indexed minus keys of the phrase's words |
| Conflicts.LemmaHitsIgnoreStrip | content.js:260-268 | the strip-plus setting never changes the hits |
| Conflicts.LemmaPhraseHitsIgnoreStrip | content.js:260-268 | toggling strip-plus leaves a phrase's hits unchanged |
| Conflicts.LemmaAddedWordIsHit | content.js:179-193 | once a word of the phrase is added as a minus word, its key is a hit of the phrase |
| Views.EffectiveMode | content.js:148-152 | the effective mode is minus exactly when minus mode is selected, or phrases mode is selected with the hotkey enabled and Shift held |
| Views.ClickKey | content.js:676-680 | the key a token click tests is the minus key of the raw word |
| Views.TokenClick | content.js:668-682 | outside effective minus mode a click changes nothing, and a click keeps the state valid |
| Views.LemmaTokenClickRemoves | content.js:680 | a click on an indexed word removes its base |
| Views.LemmaTokenClickAdds | content.js:681 | a click on an unindexed word adds its base |
| Views.LemmaTokenClickFrame | content.js:668-682 | a token click never touches the phrases, the settings or the Shift flag |
| Views.LemmaTokenClickToggles | content.js:668-682 | a click toggles the word's key in the minus index |
| Views.LemmaTokenClickTwice | content.js:668-682 | clicking a new word twice restores the minus list |
| Views.UpdateTokenView | content.js:687-718 | the button is shown exactly in effective minus mode; the token is then selected exactly when its key is indexed, with the "−" caption exactly when selected |
| Views.LemmaUpdateTokenViewIdempotent | content.js:687-718 | refreshing a token twice equals refreshing it once |
| Views.LemmaTokenClickFlipsSelection | content.js:668-718 | in minus mode a click on a word with a key flips its selected state |
| Views.LemmaWouldAskIff | content.js:766-767 | the modal opens exactly when a word of the phrase carries an indexed minus key and the warning is armed |
| Views.RememberDontAsk | content.js:769-772 | only the "don't ask" flag is set |
| Views.AskFirst | content.js:767-774 | the click proceeds exactly without the modal or on confirmation; a ticked box is remembered whatever the answer |
| Views.PhraseClick | content.js:746-778 | outside phrases mode, or with an empty key, nothing changes; an indexed phrase is removed; otherwise the phrase is added or the modal cancels |
| Views.LemmaPhraseClickRemoves | content.js:760-764 | a click on a collected phrase removes it, without asking |
| Views.LemmaPhraseClickModal | content.js:766-777 | a click on a new phrase adds it after the optional modal, or stops when the modal is cancelled |
| Views.LemmaPhraseClickAsks | content.js:746-778 | a cancel happens only after the modal was shown and not confirmed; an add reports whether the modal was shown |
| Views.LemmaPhraseClickFrame | content.js:746-778 | a phrase click changes only the phrase list, its index and the "don't ask" flag |
| Views.LemmaPhraseClickDontAsk | content.js:766-772 | the flag ends set exactly when it was set, or the modal was shown with its box ticked |
| Views.LemmaPhraseClickAdds | content.js:746-778 | after an add the key is indexed, after a removal it is gone, and after a cancel the index is unchanged |
| Views.LemmaDontAskLifecycle | content.js:224-240 | once set, the flag suppresses the modal and stays set until the phrase list is cleared |
| Views.UpdatePhraseView | content.js:783-819 | the warning shows exactly when the phrase has hits; the button is disabled outside phrases mode and there keeps its "added" state; in phrases mode it marks exactly collected phrases |
| Views.LemmaUpdatePhraseViewIdempotent | content.js:783-819 | refreshing a phrase button twice equals refreshing it once |
| Views.Handle | content.js:424-494 | the lists and indexes never change; key events and blur leave the settings alone, and each mode button or settings checkbox sets exactly its own field; Shift goes down only when the hotkey is enabled in phrases mode, and goes up on key-up of Shift, on blur, or when the hotkey is disabled |
| Views.HandleAll | content.js:1048-1068 | a sequence of events never changes the lists, and keeps the state valid and the Shift flag consistent with the hotkey setting |
| Views.LemmaHotkeyOffMeansBaseMode | content.js:1048-1068 | with the hotkey off and never switched on, Shift is never held and the effective mode is the selected mode |
| Views.LemmaStripPlusKeepsSelection | content.js:466-472 | toggling strip-plus never changes which tokens are selected |
| Decoration.TokenRow | content.js:943-948 | the row alternates the phrase's words as tokens with single spaces |
| Decoration.LemmaTokenRowWords | content.js:943-948 | the tokens of the row are exactly the words, in order |
| Decoration.ProcessPhraseAnchor | content.js:915-951 | an empty phrase, an unchanged decorated node, or a one-word phrase leave the node alone; otherwise the node is marked and rebuilt as actions, a space, and the words separated by spaces |
| Decoration.LemmaRebuiltWords | content.js:915-951 | a rebuilt node has tokens, and its tokens are the phrase's words, joined back into the phrase key |
| Decoration.LemmaProcessIdempotent | content.js:920-926 | processing a node twice with the same phrase equals processing it once |
| Decoration.LemmaRebuiltTextGainsGlyph | content.js:101-109 | the text of a rebuilt node yields a phrase that starts with the warning glyph, so it differs from the original |
| Decoration.Utf16Length | content.js:963 | the UTF-16 length is between the code-point count and twice that, and equals the code-point count exactly when no character lies outside the Basic Multilingual Plane |
| Decoration.LemmaSplitTestRedundant | content.js:964-965 | a phrase containing whitespace always passes the split-length test |
| Decoration.LemmaScannedPhraseHasWords | content.js:953-966 | a trimmed phrase the scan accepts has at least two words |
| Decoration.LemmaScanRebuilds | content.js:915-966 | an accepted trimmed phrase on a node not already decorated with it is rebuilt with its words as tokens |
| Decoration.ScanCandidate | content.js:953-966 | a candidate whose current phrase fails the filter is left alone; one with an accepted new phrase, taken from a trimmed link or from the text, is decorated with that phrase's words |
| Decoration.ScanNode | content.js:953-966 | a rejected phrase leaves the node alone; an accepted, trimmed, new phrase gets decorated with its words |

## Left out

- Persistence through `chrome.storage`. Saves are not modelled. Boot takes the stored values as `Option` inputs, and a stored value that is not an array counts as missing.
- The widget: its DOM, list rendering, dragging, position, collapsed state, panels, toasts and copy-to-clipboard. None of it affects the collected data.
- The mutation observer, scan bursts and timers, and the single-page-navigation hooks. These decide only when the scan runs.
- `getPhraseFromHref` (URL parsing and decoding). `Normalize.CurrentPhrase` takes the phrase found in the link as an input. That function trims its result (content.js:95), which `Decoration.ScanCandidate` takes as the condition `NoOuterSpace(hrefPhrase)`.
- The DOM of the warning modal. The user's answer is the `Decision` input. The `await` gap of the phrase click is not modelled: the click is one atomic step.
- Hover titles of the buttons and of the warning glyph. They are text only.
- Chars.Lower: covers ASCII, Latin-1 and the basic Cyrillic block, not all of Unicode `toLowerCase`. JavaScript's `toLowerCase` can also change the length (U+0130 becomes two code points) and depends on context (a final Σ becomes ς). The model lowers one character at a time and keeps the length, which is also why `Normalize.NormalizeMinusKey` keeps the base's length. Wordstat queries are Russian or Latin, where the two agree.
- Views.Handle: keys other than Shift appear only as a flag on the key events. Their identity does not matter.
- Views.PhraseClick: the code passes the phrase key to `addPhrase`/`removePhrase`, and the model passes the phrase. The two agree because `Normalize.LemmaNormalizePhraseIdempotent` shows the key of a key is the key itself.
- Store.MergeSettings: saved values of the wrong type are not modelled. Each saved field is a boolean or missing, and the mode a string or missing.
- The scan's candidate selection (`a, span` under the results container, outside the widget) is not modelled. `Decoration.ScanCandidate` is the per-candidate step.

=== FILE: chars.dfy ===
/**
  Character classes the content script relies on: the whitespace class of
  JavaScript regular expressions (also what `String.prototype.trim` strips),
  the two operator markers of Yandex Wordstat queries, and a per-character
  lower-casing.
 */
module Chars {

  /** JavaScript's `\s`: the WhiteSpace and LineTerminator code points of
      ECMAScript (tab, line feed, vertical tab, form feed, carriage return,
      space, no-break space, ogham space mark, the en quad to hair space
      block, line and paragraph separators, narrow no-break space, medium
      mathematical space, ideographic space and the byte order mark). */
  predicate IsSpace(c: char) {
    || c == '\t' || c == '\n' || c == '\U{000B}' || c == '\U{000C}' || c == '\r'
    || c == ' ' || c == '\U{00A0}' || c == '\U{1680}'
    || ('\U{2000}' <= c <= '\U{200A}')
    || c == '\U{2028}' || c == '\U{2029}' || c == '\U{202F}' || c == '\U{205F}'
    || c == '\U{3000}' || c == '\U{FEFF}'
  }

  /** The query operators `!` (fixed word form) and `+` (mandatory word)
      that the collector strips from keys and may add to stored words. */
  predicate IsMarker(c: char) {
    c == '!' || c == '+'
  }

  predicate IsPlus(c: char) {
    c == '+'
  }

  /** The capital letters `Lower` knows: ASCII, Latin-1 (without the
      multiplication sign) and the basic Cyrillic block. */
  predicate IsUpper(c: char) {
    || ('A' <= c <= 'Z')
    || ('\U{00C0}' <= c <= '\U{00DE}' && c != '\U{00D7}')
    || ('\U{0400}' <= c <= '\U{042F}')
  }

  /** Lower-casing of one character: ASCII, Latin-1 and the basic Cyrillic
      block, which is what Wordstat queries are written in. A capital maps to
      its small letter (32 code points on, or 80 for the Cyrillic letters
      U+0400-U+040F such as Ё); every other character stays. */
  function Lower(c: char): (r: char)
    ensures !IsUpper(r)
    ensures !IsUpper(c) ==> r == c
    ensures ('A' <= c <= 'Z') || ('\U{00C0}' <= c <= '\U{00DE}' && c != '\U{00D7}') || ('\U{0410}' <= c <= '\U{042F}') ==>
      r as int == c as int + 32
    ensures '\U{0400}' <= c <= '\U{040F}' ==> r as int == c as int + 80
    ensures IsMarker(r) <==> IsMarker(c)
    ensures IsSpace(r) <==> IsSpace(c)
    ensures r != c ==> 'a' <= r <= 'z' || '\U{00E0}' <= r <= '\U{00FE}' || '\U{0430}' <= r <= '\U{045F}'
  {
    if 'A' <= c <= 'Z' then (c as int + 32) as char
    else if '\U{00C0}' <= c <= '\U{00DE}' && c != '\U{00D7}' then (c as int + 32) as char
    else if '\U{0410}' <= c <= '\U{042F}' then (c as int + 32) as char
    else if '\U{0400}' <= c <= '\U{040F}' then (c as int + 80) as char
    else c
  }

  /** Lower-casing a character twice changes nothing more. */
  lemma LemmaLowerIdempotent(c: char)
    ensures Lower(Lower(c)) == Lower(c)
  {
  }
}

=== FILE: conflicts.dfy ===
/**
  Conflict detection between a key phrase and the minus words
  (`phraseMinusHits`, content.js:260-268): the minus keys that some word of
  the phrase carries, each once, in the order the words first produce them.
 */
module Conflicts {
  import opened Seqs
  import opened Normalize
  import opened Store
  import opened Index

  /** One step of the loop: a nonempty indexed key not met before joins the
      hits, at the end. */
  function AddHit(acc: seq<string>, key: string, minusSet: set<string>): (r: seq<string>)
    requires NoDup(acc)
    ensures NoDup(r) && acc <= r
    ensures forall h :: h in r <==> h in acc || (h == key && |key| > 0 && key in minusSet)
  {
    if |key| > 0 && key in minusSet && key !in acc then
      LemmaNoDupAppend(acc, key);
      acc + [key]
    else acc
  }

  /** The loop over the words, with `acc` the hits found so far (the `Set`
      that keeps insertion order). */
  function CollectHits(toks: seq<string>, strip: bool, minusSet: set<string>, acc: seq<string>): (r: seq<string>)
    requires NoDup(acc)
    ensures NoDup(r)
    ensures acc <= r
    decreases |toks|
  {
    if |toks| == 0 then acc
    else CollectHits(toks[1..], strip, minusSet, AddHit(acc, TokenMinusKey(toks[0], strip), minusSet))
  }

  /** A key ends up among the hits exactly when it was found before or some
      word carries it and it is an indexed nonempty key. */
  lemma {:induction false} LemmaCollectHitsMember(toks: seq<string>, strip: bool, minusSet: set<string>, acc: seq<string>, h: string)
    requires NoDup(acc)
    ensures h in CollectHits(toks, strip, minusSet, acc) <==>
      h in acc || (|h| > 0 && h in minusSet && HasKey(toks, NormalizeMinusKey, h))
    decreases |toks|
  {
    if |toks| > 0 {
      var acc' := AddHit(acc, TokenMinusKey(toks[0], strip), minusSet);
      LemmaHasKeyCons(toks, NormalizeMinusKey);
      LemmaCollectHitsMember(toks[1..], strip, minusSet, acc', h);
    }
  }

  lemma LemmaCollectHitsMembers(toks: seq<string>, strip: bool, minusSet: set<string>)
    ensures forall h :: h in CollectHits(toks, strip, minusSet, []) <==>
      |h| > 0 && h in minusSet && HasKey(toks, NormalizeMinusKey, h)
  {
    forall h ensures h in CollectHits(toks, strip, minusSet, []) <==>
      |h| > 0 && h in minusSet && HasKey(toks, NormalizeMinusKey, h)
    {
      LemmaCollectHitsMember(toks, strip, minusSet, [], h);
    }
  }

  lemma LemmaNoDupAppend(acc: seq<string>, key: string)
    requires NoDup(acc)
    ensures key !in acc ==> NoDup(acc + [key])
  {
    if key !in acc {
      var s := acc + [key];
      forall i, j | 0 <= i < j < |s| ensures s[i] != s[j] {
        assert s[i] == acc[i];
        if j < |acc| {
          assert s[j] == acc[j];
        } else {
          assert acc[i] in acc;
        }
      }
    }
  }

  /** `phraseMinusHits`: the distinct minus keys of the phrase's words that
      are in the minus index. */
  function PhraseMinusHits(st: State, phrase: string): (r: seq<string>)
    ensures NoDup(r)
    ensures forall h :: h in r <==>
      |h| > 0 && h in st.minusSet && HasKey(SplitWords(phrase), NormalizeMinusKey, h)
  {
    LemmaCollectHitsMembers(SplitWords(phrase), st.settings.stripPlusInPhrases, st.minusSet);
    CollectHits(SplitWords(phrase), st.settings.stripPlusInPhrases, st.minusSet, [])
  }

  /** Whether `+` is stripped from displayed words never changes the hits. */
  lemma {:induction false} LemmaHitsIgnoreStrip(toks: seq<string>, minusSet: set<string>, acc: seq<string>)
    requires NoDup(acc)
    ensures CollectHits(toks, true, minusSet, acc) == CollectHits(toks, false, minusSet, acc)
    decreases |toks|
  {
    if |toks| > 0 {
      assert TokenMinusKey(toks[0], true) == TokenMinusKey(toks[0], false);
      LemmaHitsIgnoreStrip(toks[1..], minusSet, AddHit(acc, TokenMinusKey(toks[0], true), minusSet));
    }
  }

  /** The hits of a phrase depend only on its words and the minus index. */
  lemma LemmaPhraseHitsIgnoreStrip(st: State, phrase: string)
    ensures PhraseMinusHits(st, phrase)
         == PhraseMinusHits(st.(settings := st.settings.(stripPlusInPhrases := !st.settings.stripPlusInPhrases)), phrase)
  {
    LemmaHitsIgnoreStrip(SplitWords(phrase), st.minusSet, []);
  }

  /** Adding a word of the phrase as a minus word makes that word's key a
      hit. */
  lemma LemmaAddedWordIsHit(st: State, phrase: string, i: int)
    requires Valid(st)
    requires 0 <= i < |SplitWords(phrase)|
    requires |NormalizeMinusKey(SplitWords(phrase)[i])| > 0
    ensures NormalizeMinusKey(SplitWords(phrase)[i])
              in PhraseMinusHits(AddMinusWord(st, SplitWords(phrase)[i]).st, phrase)
  {
    var w := SplitWords(phrase)[i];
    LemmaAddMinusWordIndex(st, w);
    var st' := AddMinusWord(st, w).st;
    assert TokenMinusKey(SplitWords(phrase)[i], st'.settings.stripPlusInPhrases) == NormalizeMinusKey(w);
  }
}

=== FILE: decoration.dfy ===
/**
  Decoration of the results page (content.js:915-966): a phrase node is
  rebuilt into a phrase-actions node followed by one token node per word,
  and the page scan picks which nodes to rebuild. A node is abstracted to
  the marks the script keeps in its dataset and its list of children.
 */
module Decoration {
  import opened Chars
  import opened Seqs
  import opened Normalize
  import opened Store
  import opened Views

  /** A child of a phrase node: the phrase-actions node (warning glyph and
      button), a one-space text node, a token node, or text the page put
      there before decoration. The view state of the actions and token nodes
      is what `PhraseViewOf` and `TokenViewOf` compute from the state. */
  datatype Child =
    | Actions(phrase: string)
    | Space
    | Token(raw: string)
    | Text(text: string)

  /** A phrase node: `data-wc-processed`, `data-wc-phrase` and children. */
  datatype Node = Node(processed: bool, mark: string, children: seq<Child>)

  /** `a.querySelector(".wc-token")` finds something. */
  predicate HasTokens(n: Node) {
    exists i :: 0 <= i < |n.children| && n.children[i].Token?
  }

  /** The view of a token node as `makeTokenNode` creates it and
      `updateTokenUI` fills it under state `st`. */
  function TokenViewOf(st: State, raw: string): TokenView {
    UpdateTokenView(FreshTokenView, st, raw)
  }

  /** The view of a phrase-actions node as `makePhraseActionsNode` creates it
      and `updatePhraseActionsUI` fills it under state `st`. */
  function PhraseViewOf(st: State, phrase: string): PhraseView {
    UpdatePhraseView(FreshPhraseView, st, phrase)
  }

  /** The tokens of `parts` in order, separated by single spaces (the loop
      at content.js:943-948). */
  function TokenRow(parts: seq<string>): (r: seq<Child>)
    ensures |r| == if |parts| == 0 then 0 else 2 * |parts| - 1
    ensures forall i :: 0 <= i < |parts| ==> r[2 * i] == Token(parts[i])
    ensures forall i :: 0 <= i < |parts| - 1 ==> r[2 * i + 1] == Space
    decreases |parts|
  {
    if |parts| == 0 then []
    else if |parts| == 1 then [Token(parts[0])]
    else
      var rest := TokenRow(parts[1..]);
      var r := [Token(parts[0]), Space] + rest;
      LemmaRowStep(parts, rest);
      r
  }

  lemma LemmaRowStep(parts: seq<string>, rest: seq<Child>)
    requires |parts| >= 2 && |rest| == 2 * |parts| - 3
    requires forall j :: 0 <= j < |parts| - 1 ==> rest[2 * j] == Token(parts[1..][j])
    requires forall j :: 0 <= j < |parts| - 2 ==> rest[2 * j + 1] == Space
    ensures var r := [Token(parts[0]), Space] + rest;
      && (forall i :: 0 <= i < |parts| ==> r[2 * i] == Token(parts[i]))
      && (forall i :: 0 <= i < |parts| - 1 ==> r[2 * i + 1] == Space)
  {
    var r := [Token(parts[0]), Space] + rest;
    forall i | 1 <= i < |parts| ensures r[2 * i] == Token(parts[i]) {
      var j := i - 1;
      assert rest[2 * j] == Token(parts[1..][j]);
      assert r[2 * i] == rest[2 * j];
    }
    forall i | 1 <= i < |parts| - 1 ensures r[2 * i + 1] == Space {
      var j := i - 1;
      assert rest[2 * j + 1] == Space;
      assert r[2 * i + 1] == rest[2 * j + 1];
    }
  }

  /** The raw words of the token children, in order. */
  function TokenWords(cs: seq<Child>): seq<string>
    decreases |cs|
  {
    if |cs| == 0 then []
    else (if cs[0].Token? then [cs[0].raw] else []) + TokenWords(cs[1..])
  }

  lemma {:induction false} LemmaTokenWordsAppend(a: seq<Child>, b: seq<Child>)
    ensures TokenWords(a + b) == TokenWords(a) + TokenWords(b)
    decreases |a|
  {
    if |a| > 0 {
      assert (a + b)[1..] == a[1..] + b;
      LemmaTokenWordsAppend(a[1..], b);
    } else {
      assert a + b == b;
    }
  }

  /** Reading the words back off a token row gives the words it was built
      from. */
  lemma {:induction false} LemmaTokenRowWords(parts: seq<string>)
    ensures TokenWords(TokenRow(parts)) == parts
    decreases |parts|
  {
    if |parts| >= 2 {
      var rest := TokenRow(parts[1..]);
      LemmaTokenRowWords(parts[1..]);
      LemmaTokenWordsAppend([Token(parts[0]), Space], rest);
      assert TokenWords([Token(parts[0]), Space]) == [parts[0]] by {
        assert [Token(parts[0]), Space][1..] == [Space];
        assert [Space][1..] == [];
      }
      assert TokenRow(parts) == [Token(parts[0]), Space] + rest;
    } else if |parts| == 1 {
      assert TokenRow(parts) == [Token(parts[0])];
      assert [Token(parts[0])][1..] == [];
    }
  }

  /** Whether `processPhraseAnchor` leaves the node alone: no phrase, the
      node already carries tokens for this very phrase, or a single word. */
  predicate KeepsNode(n: Node, phraseNow: string) {
    || |phraseNow| == 0
    || (n.processed && HasTokens(n) && n.mark == phraseNow)
    || |SplitWords(phraseNow)| <= 1
  }

  /** `processPhraseAnchor`, with the node's current phrase (what
      `getCurrentPhrase` derives for it) as an input: unless the node is
      kept, it is marked with the phrase and its children become the
      phrase-actions node, a space, and the phrase's words as tokens
      separated by spaces. The views of the new children are then filled from
      the state (`TokenViewOf`, `PhraseViewOf`). */
  function ProcessPhraseAnchor(n: Node, phraseNow: string): (r: Node)
    ensures KeepsNode(n, phraseNow) ==> r == n
    ensures !KeepsNode(n, phraseNow) ==>
      var parts := SplitWords(phraseNow);
      && r.processed && r.mark == phraseNow
      && |r.children| == 2 * |parts| + 1
      && r.children[0] == Actions(phraseNow)
      && r.children[1] == Space
      && (forall i :: 0 <= i < |parts| ==> r.children[2 + 2 * i] == Token(parts[i]))
      && (forall i :: 0 <= i < |parts| - 1 ==> r.children[3 + 2 * i] == Space)
  {
    if KeepsNode(n, phraseNow) then n
    else
      var parts := SplitWords(phraseNow);
      var row := TokenRow(parts);
      LemmaRowAfterActions(phraseNow, parts, row);
      Node(true, phraseNow, [Actions(phraseNow), Space] + row)
  }

  lemma LemmaRowAfterActions(phraseNow: string, parts: seq<string>, row: seq<Child>)
    requires |row| == 2 * |parts| - 1
    requires forall i :: 0 <= i < |parts| ==> row[2 * i] == Token(parts[i])
    requires forall i :: 0 <= i < |parts| - 1 ==> row[2 * i + 1] == Space
    ensures var cs := [Actions(phraseNow), Space] + row;
      && (forall i :: 0 <= i < |parts| ==> cs[2 + 2 * i] == Token(parts[i]))
      && (forall i :: 0 <= i < |parts| - 1 ==> cs[3 + 2 * i] == Space)
  {
    var cs := [Actions(phraseNow), Space] + row;
    forall i | 0 <= i < |parts| ensures cs[2 + 2 * i] == Token(parts[i]) {
      assert cs[2 + 2 * i] == row[2 * i];
    }
    forall i | 0 <= i < |parts| - 1 ensures cs[3 + 2 * i] == Space {
      assert cs[3 + 2 * i] == row[2 * i + 1];
    }
  }

  /** A rebuilt node carries tokens whose words, joined with single spaces,
      are the normalized phrase. */
  lemma LemmaRebuiltWords(n: Node, phraseNow: string)
    requires !KeepsNode(n, phraseNow)
    ensures HasTokens(ProcessPhraseAnchor(n, phraseNow))
    ensures TokenWords(ProcessPhraseAnchor(n, phraseNow).children) == SplitWords(phraseNow)
    ensures Join(TokenWords(ProcessPhraseAnchor(n, phraseNow).children), ' ') == NormalizePhrase(phraseNow)
  {
    var parts := SplitWords(phraseNow);
    var head := [Actions(phraseNow), Space];
    var r := ProcessPhraseAnchor(n, phraseNow);
    assert r.children == head + TokenRow(parts);
    assert r.children[2].Token?;
    LemmaTokenWordsAppend(head, TokenRow(parts));
    LemmaTokenRowWords(parts);
    assert head[1..] == [Space];
    assert [Space][1..] == [];
    assert TokenWords(head) == [];
  }

  /** Decoration is idempotent for a given phrase: the rebuilt node is marked
      with it and carries tokens. */
  lemma LemmaProcessIdempotent(n: Node, phraseNow: string)
    ensures var r := ProcessPhraseAnchor(n, phraseNow);
      ProcessPhraseAnchor(r, phraseNow) == r
  {
    if !KeepsNode(n, phraseNow) {
      LemmaRebuiltWords(n, phraseNow);
    }
  }

  // ---------------------------------------------------------------------
  // The text a rebuilt node shows
  // ---------------------------------------------------------------------

  /** The warning glyph "⚠️" of the phrase-actions node (U+26A0 U+FE0F). */
  const WarnGlyph := "\U{26A0}\U{FE0F}"

  /** `textContent` of a child once its view is filled under `st`. */
  function ChildText(c: Child, st: State): string {
    match c
    case Actions(p) => WarnGlyph + PhraseViewOf(st, p).caption
    case Space => " "
    case Token(raw) => TokenViewOf(st, raw).caption + TokenViewOf(st, raw).text
    case Text(t) => t
  }

  /** `textContent` of a node's children. */
  function NodeText(cs: seq<Child>, st: State): string
    decreases |cs|
  {
    if |cs| == 0 then "" else ChildText(cs[0], st) + NodeText(cs[1..], st)
  }

  lemma LemmaBlankAppend(a: string, b: string)
    ensures BlankOperators(a + b) == BlankOperators(a) + BlankOperators(b)
  {
  }

  /** A rebuilt node's text starts with the warning glyph, and the glyph is
      not an operator, so the text fallback of `getCurrentPhrase` reads it as
      the first word. Rebuilding therefore changes the phrase a node without
      a link derives from its text, and a scan of such a node does not reach
      a fixpoint. */
  lemma LemmaRebuiltTextGainsGlyph(n: Node, phraseNow: string, st: State)
    requires !KeepsNode(n, phraseNow)
    ensures var r := ProcessPhraseAnchor(n, phraseNow);
      var derived := PhraseFromText(NodeText(r.children, st));
      |SplitWords(derived)| > 0 && SplitWords(derived)[0] == WarnGlyph
    ensures |SplitWords(phraseNow)| > 0 && SplitWords(phraseNow)[0] != WarnGlyph ==>
      PhraseFromText(NodeText(ProcessPhraseAnchor(n, phraseNow).children, st)) != phraseNow
  {
    var r := ProcessPhraseAnchor(n, phraseNow);
    var c := PhraseViewOf(st, phraseNow).caption;
    var rest := NodeText(r.children[1..], st);
    assert NodeText(r.children, st) == WarnGlyph + c + rest;
    LemmaGlyphFirstWord(c, rest);
  }

  /** Blanking operators in the glyph, a button caption and anything after
      leaves the glyph as the first word. */
  lemma LemmaGlyphFirstWord(c: string, rest: string)
    requires c == AddLabel || c == RemoveLabel
    ensures var b := BlankOperators(WarnGlyph + c + rest);
      |SplitWords(b)| > 0 && SplitWords(b)[0] == WarnGlyph
  {
    LemmaBlankAppend(WarnGlyph + c, rest);
    LemmaBlankAppend(WarnGlyph, c);
    assert BlankOperators(c) == " ";
    assert BlankOperators(WarnGlyph) == WarnGlyph;
    var tail := " " + BlankOperators(rest);
    assert BlankOperators(WarnGlyph + c + rest) == WarnGlyph + tail;
    assert IsRun(WarnGlyph, IsSpace);
    LemmaRunsCons(WarnGlyph, tail, IsSpace);
  }

  // ---------------------------------------------------------------------
  // The scan filter
  // ---------------------------------------------------------------------

  /** `phrase.length`: JavaScript counts UTF-16 code units, two for a
      character outside the Basic Multilingual Plane. */
  function Utf16Length(s: string): (n: nat)
    ensures |s| <= n <= 2 * |s|
    ensures n == |s| <==> forall i :: 0 <= i < |s| ==> s[i] as int <= 0xFFFF
    decreases |s|
  {
    if |s| == 0 then 0 else (if s[0] as int > 0xFFFF then 2 else 1) + Utf16Length(s[1..])
  }

  predicate NotSpace(c: char) {
    !IsSpace(c)
  }

  /** `phrase.split(/\s+/).length`: one piece more than there are maximal
      whitespace runs (empty pieces at either end included). */
  function JsSplitLength(s: string): nat {
    |Runs(s, NotSpace)| + 1
  }

  /** Longest phrase the scan decorates, in UTF-16 code units. */
  const MaxScanLength := 120

  /** The filter of `scanAndInject` on a candidate's phrase. */
  predicate ScanAccepts(phrase: string) {
    && |phrase| > 0
    && Utf16Length(phrase) <= MaxScanLength
    && (exists i :: 0 <= i < |phrase| && IsSpace(phrase[i]))
    && JsSplitLength(phrase) >= 2
  }

  /** A sequence with an element outside `p` has at least one run. */
  lemma LemmaRunsNonEmpty<T>(s: seq<T>, p: T -> bool, k: int)
    requires 0 <= k < |s| && !p(s[k])
    ensures |Runs(s, p)| > 0
  {
  }

  /** The split-length test of the scan is implied by the whitespace test
      before it. */
  lemma LemmaSplitTestRedundant(phrase: string, k: int)
    requires 0 <= k < |phrase| && IsSpace(phrase[k])
    ensures JsSplitLength(phrase) >= 2
  {
    LemmaRunsNonEmpty(phrase, NotSpace, k);
  }

  /** A trimmed phrase with whitespace inside has at least two words. */
  lemma LemmaSpacedPhraseHasWords(phrase: string, k: int)
    requires 0 <= k < |phrase| && IsSpace(phrase[k]) && NoOuterSpace(phrase)
    ensures |SplitWords(phrase)| >= 2
  {
    assert !IsSpace(phrase[0]) && !IsSpace(phrase[|phrase| - 1]);
    assert DropWhile(phrase, IsSpace) == phrase;
    var w := TakeUntil(phrase, IsSpace);
    assert |w| <= k;
    assert |w| > 0;
    var rest := phrase[|w|..];
    assert rest[|rest| - 1] == phrase[|phrase| - 1];
    LemmaRunsNonEmpty(rest, IsSpace, |rest| - 1);
    assert Runs(phrase, IsSpace) == [w] + Runs(rest, IsSpace);
  }

  /** A trimmed phrase the scan accepts has at least two words, so
      `processPhraseAnchor` rebuilds it unless it is already decorated for
      this phrase. */
  lemma LemmaScannedPhraseHasWords(phrase: string)
    requires ScanAccepts(phrase) && NoOuterSpace(phrase)
    ensures |SplitWords(phrase)| >= 2
  {
    var k :| 0 <= k < |phrase| && IsSpace(phrase[k]);
    LemmaSpacedPhraseHasWords(phrase, k);
  }

  /** A trimmed phrase that passes the filter rebuilds a node not yet
      decorated for it. */
  lemma LemmaScanRebuilds(n: Node, phrase: string)
    ensures ScanAccepts(phrase) && NoOuterSpace(phrase) && !(n.processed && HasTokens(n) && n.mark == phrase) ==>
      !KeepsNode(n, phrase) && TokenWords(ProcessPhraseAnchor(n, phrase).children) == SplitWords(phrase)
  {
    if ScanAccepts(phrase) && NoOuterSpace(phrase) && !(n.processed && HasTokens(n) && n.mark == phrase) {
      LemmaScannedPhraseHasWords(phrase);
      LemmaRebuiltWords(n, phrase);
    }
  }

  /** One candidate of `scanAndInject`: decorated when its phrase passes the
      filter. */
  function ScanNode(n: Node, phrase: string): (r: Node)
    ensures !ScanAccepts(phrase) ==> r == n
    ensures ScanAccepts(phrase) && NoOuterSpace(phrase) && !(n.processed && HasTokens(n) && n.mark == phrase) ==>
      r.processed && r.mark == phrase && TokenWords(r.children) == SplitWords(phrase)
  {
    LemmaScanRebuilds(n, phrase);
    if !ScanAccepts(phrase) then n else ProcessPhraseAnchor(n, phrase)
  }

  /** A candidate of `scanAndInject` with its phrase taken by
      `getCurrentPhrase`: the link's phrase (trimmed where it is extracted)
      or the text fallback. A trimmed phrase is all the rebuild needs, and
      both sources supply one. */
  function ScanCandidate(n: Node, hrefPhrase: string, text: string): (r: Node)
    ensures var p := CurrentPhrase(hrefPhrase, text);
      && (!ScanAccepts(p) ==> r == n)
      && (NoOuterSpace(hrefPhrase) && ScanAccepts(p) && !(n.processed && HasTokens(n) && n.mark == p) ==>
            r.processed && r.mark == p && TokenWords(r.children) == SplitWords(p))
  {
    ScanNode(n, CurrentPhrase(hrefPhrase, text))
  }
}

=== FILE: index.dfy ===
/**
  Keyed indexes over a list, generic in the key function: the set of keys of
  a list (the shape of `phraseSet`) and the map from each key to the first
  element carrying it (the shape of `minusSet`/`minusToStored`). Both are
  built by one pass from the front of the list, exactly as the rebuild loops
  of the content script do (content.js:121-140).
 */
module Index {
  import opened Seqs

  /** Some element of `s` has key `k`. */
  ghost predicate HasKey<T, K(!new)>(s: seq<T>, f: T -> K, k: K) {
    exists i :: 0 <= i < |s| && f(s[i]) == k
  }

  /** No element before `s[i]` has its key. */
  ghost predicate IsFirst<T, K(!new)>(s: seq<T>, f: T -> K, i: int)
    requires 0 <= i < |s|
  {
    forall j :: 0 <= j < i ==> f(s[j]) != f(s[i])
  }

  /** The keys of `s` that `ok` accepts. */
  function KeySet<T, K(!new)>(s: seq<T>, f: T -> K, ok: K -> bool): (r: set<K>)
    ensures forall k :: k in r <==> ok(k) && HasKey(s, f, k)
    decreases |s|
  {
    if |s| == 0 then {}
    else
      var x := s[|s| - 1];
      LemmaHasKeySnoc(s, f);
      KeySet(s[..|s| - 1], f, ok) + (if ok(f(x)) then {f(x)} else {})
  }

  /** The keys of a nonempty list are the keys of its front and the key of
      its last element. */
  lemma LemmaHasKeySnoc<T, K(!new)>(s: seq<T>, f: T -> K)
    requires |s| > 0
    ensures forall k :: HasKey(s, f, k) <==> HasKey(s[..|s| - 1], f, k) || f(s[|s| - 1]) == k
  {
    var pre := s[..|s| - 1];
    forall k | HasKey(s, f, k) ensures HasKey(pre, f, k) || f(s[|s| - 1]) == k {
      var i :| 0 <= i < |s| && f(s[i]) == k;
      if i < |pre| {
        assert s[i] == pre[i];
      }
    }
    forall k | HasKey(pre, f, k) ensures HasKey(s, f, k) {
      var i :| 0 <= i < |pre| && f(pre[i]) == k;
      assert s[i] == pre[i];
    }
    assert HasKey(s, f, f(s[|s| - 1]));
  }

  /** Maps every accepted key of `s` to the first element with that key: an
      element whose key is already present is skipped. */
  function FirstByKey<T, K(!new)>(s: seq<T>, f: T -> K, ok: K -> bool): (r: map<K, T>)
    ensures forall k :: k in r <==> ok(k) && HasKey(s, f, k)
    ensures forall i :: 0 <= i < |s| && ok(f(s[i])) && IsFirst(s, f, i) ==> f(s[i]) in r && r[f(s[i])] == s[i]
    decreases |s|
  {
    if |s| == 0 then map[]
    else
      var x := s[|s| - 1];
      var r0 := FirstByKey(s[..|s| - 1], f, ok);
      var r := if !ok(f(x)) || f(x) in r0 then r0 else r0[f(x) := x];
      LemmaFirstByKeyStep(s, f, ok, r0, r);
      r
  }

  /** One step of the first-wins loop. */
  lemma LemmaFirstByKeyStep<T, K(!new)>(s: seq<T>, f: T -> K, ok: K -> bool, r0: map<K, T>, r: map<K, T>)
    requires |s| > 0
    requires forall k :: k in r0 <==> ok(k) && HasKey(s[..|s| - 1], f, k)
    requires forall i :: 0 <= i < |s| - 1 && ok(f(s[i])) && IsFirst(s[..|s| - 1], f, i) ==>
               f(s[i]) in r0 && r0[f(s[i])] == s[i]
    requires r == if !ok(f(s[|s| - 1])) || f(s[|s| - 1]) in r0 then r0 else r0[f(s[|s| - 1]) := s[|s| - 1]]
    ensures forall k :: k in r <==> ok(k) && HasKey(s, f, k)
    ensures forall i :: 0 <= i < |s| && ok(f(s[i])) && IsFirst(s, f, i) ==> f(s[i]) in r && r[f(s[i])] == s[i]
  {
    var pre := s[..|s| - 1];
    var x := s[|s| - 1];
    LemmaHasKeySnoc(s, f);
    forall i | 0 <= i < |s| && ok(f(s[i])) && IsFirst(s, f, i)
      ensures f(s[i]) in r && r[f(s[i])] == s[i]
    {
      if i < |pre| {
        assert IsFirst(pre, f, i) by {
          forall j | 0 <= j < i ensures f(pre[j]) != f(pre[i]) {
            assert pre[j] == s[j] && pre[i] == s[i];
          }
        }
        assert pre[i] == s[i];
        if f(s[i]) == f(x) {
          assert HasKey(pre, f, f(x));
        }
      }
    }
  }

  /** The domain of the first-wins map is the key set. */
  lemma LemmaFirstByKeyDomain<T, K(!new)>(s: seq<T>, f: T -> K, ok: K -> bool)
    ensures FirstByKey(s, f, ok).Keys == KeySet(s, f, ok)
  {
  }

  /** An indexed key has a first element, and that is what the map holds. */
  lemma LemmaIndexedIsFirst<T, K(!new)>(s: seq<T>, f: T -> K, ok: K -> bool, k: K) returns (i: int)
    requires k in FirstByKey(s, f, ok)
    ensures 0 <= i < |s| && f(s[i]) == k && IsFirst(s, f, i)
    ensures FirstByKey(s, f, ok)[k] == s[i]
  {
    i :| 0 <= i < |s| && f(s[i]) == k;
    while !IsFirst(s, f, i)
      invariant 0 <= i < |s| && f(s[i]) == k
      decreases i
    {
      var j :| 0 <= j < i && f(s[j]) == f(s[i]);
      i := j;
    }
  }

  /** An accepted key outside the key set belongs to no element. */
  lemma LemmaAbsentKey<T, K(!new)>(s: seq<T>, f: T -> K, ok: K -> bool, k: K)
    requires ok(k) && k !in KeySet(s, f, ok)
    ensures forall y :: y in s ==> f(y) != k
  {
    forall y | y in s ensures f(y) != k {
      var i :| 0 <= i < |s| && s[i] == y;
    }
  }

  /** Appending an element adds its key (when accepted). */
  lemma LemmaKeySetAppend<T, K(!new)>(s: seq<T>, x: T, f: T -> K, ok: K -> bool)
    ensures KeySet(s + [x], f, ok) == KeySet(s, f, ok) + (if ok(f(x)) then {f(x)} else {})
  {
    assert (s + [x])[..|s|] == s;
  }

  /** The keys of a nonempty list are the key of its head and the keys of
      its tail. */
  lemma LemmaKeySetCons<T, K(!new)>(s: seq<T>, f: T -> K, ok: K -> bool)
    requires |s| > 0
    ensures KeySet(s, f, ok) == (if ok(f(s[0])) then {f(s[0])} else {}) + KeySet(s[1..], f, ok)
  {
    LemmaHasKeyCons(s, f);
  }

  lemma LemmaHasKeyCons<T, K(!new)>(s: seq<T>, f: T -> K)
    requires |s| > 0
    ensures forall k :: HasKey(s, f, k) <==> f(s[0]) == k || HasKey(s[1..], f, k)
  {
    var tail := s[1..];
    forall k | HasKey(tail, f, k) ensures HasKey(s, f, k) {
      var i :| 0 <= i < |tail| && f(tail[i]) == k;
      assert tail[i] == s[i + 1];
    }
    forall k | HasKey(s, f, k) && k != f(s[0]) ensures HasKey(tail, f, k) {
      var i :| 0 <= i < |s| && f(s[i]) == k;
      assert s[i] == tail[i - 1];
    }
    assert HasKey(s, f, f(s[0]));
  }

  /** Appending an element with a new accepted key maps that key to it. */
  lemma LemmaFirstByKeyAppend<T, K(!new)>(s: seq<T>, x: T, f: T -> K, ok: K -> bool)
    requires ok(f(x)) && f(x) !in FirstByKey(s, f, ok)
    ensures FirstByKey(s + [x], f, ok) == FirstByKey(s, f, ok)[f(x) := x]
  {
    assert (s + [x])[..|s|] == s;
  }

  /** The elements of `s` whose key is not `key`
      (`filter(p => f(p) !== key)`). */
  function DropKey<T(!new), K(!new, ==)>(s: seq<T>, f: T -> K, key: K): (r: seq<T>)
    ensures forall x :: x in r <==> x in s && f(x) != key
    ensures (forall i :: 0 <= i < |s| ==> f(s[i]) != key) ==> r == s
  {
    Filter(s, x => f(x) != key)
  }

  /** The elements of `s` other than `v` (`filter(x => x !== v)`). */
  function DropValue<T(!new, ==)>(s: seq<T>, v: T): (r: seq<T>)
    ensures forall x :: x in r <==> x in s && x != v
    ensures v !in s ==> r == s
  {
    Filter(s, x => x != v)
  }

  /** Dropping a value from a list with a head: the head stays unless it is
      the value. */
  lemma LemmaDropValueCons<T(!new)>(x: T, s: seq<T>, v: T)
    ensures DropValue([x] + s, v) == (if x == v then [] else [x]) + DropValue(s, v)
  {
    assert ([x] + s)[1..] == s;
  }

  /** Two different elements with one key: the map holds the first, and
      dropping it leaves the second, which still carries the key. */
  lemma LemmaDropFirstOfTwo<T(!new), K(!new)>(a: T, b: T, f: T -> K, ok: K -> bool)
    requires a != b && f(a) == f(b) && ok(f(a))
    ensures f(a) in FirstByKey([a, b], f, ok) && FirstByKey([a, b], f, ok)[f(a)] == a
    ensures DropValue([a, b], a) == [b]
    ensures f(a) in FirstByKey([b], f, ok)
  {
    LemmaFirstOfTwo(a, b, f, ok);
    LemmaDropHeadOfTwo(a, b);
    assert HasKey([b], f, f(a)) by {
      assert f([b][0]) == f(a);
    }
  }

  lemma LemmaFirstOfTwo<T, K(!new)>(a: T, b: T, f: T -> K, ok: K -> bool)
    requires f(a) == f(b) && ok(f(a))
    ensures f(a) in FirstByKey([a, b], f, ok) && FirstByKey([a, b], f, ok)[f(a)] == a
  {
    var ws := [a, b];
    assert HasKey(ws, f, f(a)) by {
      assert f(ws[0]) == f(a);
    }
    var i := LemmaIndexedIsFirst(ws, f, ok, f(a));
    assert i == 0 by {
      assert f(ws[0]) == f(ws[1]);
    }
  }

  lemma LemmaDropHeadOfTwo<T(!new)>(a: T, b: T)
    requires a != b
    ensures DropValue([a, b], a) == [b]
  {
    LemmaDropValueCons(a, [b], a);
    LemmaDropValueCons(b, [], a);
    assert [a, b] == [a] + [b];
    assert [b] == [b] + [];
  }

  /** Dropping a key drops exactly that key from the key set. */
  lemma LemmaKeySetDropKey<T(!new), K(!new)>(s: seq<T>, f: T -> K, ok: K -> bool, key: K)
    ensures KeySet(DropKey(s, f, key), f, ok) == KeySet(s, f, ok) - {key}
  {
    var d := DropKey(s, f, key);
    forall k | k in KeySet(s, f, ok) - {key} ensures k in KeySet(d, f, ok) {
      var i :| 0 <= i < |s| && f(s[i]) == k;
      assert s[i] in d;
      var j :| 0 <= j < |d| && d[j] == s[i];
    }
    forall k | k in KeySet(d, f, ok) ensures k in KeySet(s, f, ok) - {key} {
      var j :| 0 <= j < |d| && f(d[j]) == k;
      assert d[j] in s;
      var i :| 0 <= i < |s| && s[i] == d[j];
    }
  }

  /** With distinct keys, dropping the element a key maps to drops exactly
      that key. */
  lemma LemmaDropIndexedValue<T(!new), K(!new)>(s: seq<T>, f: T -> K, ok: K -> bool, key: K)
    requires DistinctBy(s, f) && key in FirstByKey(s, f, ok)
    ensures KeySet(DropValue(s, FirstByKey(s, f, ok)[key]), f, ok) == KeySet(s, f, ok) - {key}
  {
    var v := FirstByKey(s, f, ok)[key];
    var i := LemmaIndexedIsFirst(s, f, ok, key);
    LemmaDropValueKeepsOtherKeys(s, f, ok, v, key);
    LemmaDropValueLosesKey(s, f, ok, i);
  }

  /** Dropping an element with key `key` keeps every other key. */
  lemma LemmaDropValueKeepsOtherKeys<T(!new), K(!new)>(s: seq<T>, f: T -> K, ok: K -> bool, v: T, key: K)
    requires f(v) == key
    ensures KeySet(s, f, ok) - {key} <= KeySet(DropValue(s, v), f, ok)
  {
    var d := DropValue(s, v);
    forall k | k in KeySet(s, f, ok) - {key} ensures k in KeySet(d, f, ok) {
      var j :| 0 <= j < |s| && f(s[j]) == k;
      assert s[j] in d;
      var m :| 0 <= m < |d| && d[m] == s[j];
    }
  }

  /** With distinct keys, dropping the element at `i` loses its key and adds
      none. */
  lemma LemmaDropValueLosesKey<T(!new), K(!new)>(s: seq<T>, f: T -> K, ok: K -> bool, i: int)
    requires DistinctBy(s, f) && 0 <= i < |s|
    ensures KeySet(DropValue(s, s[i]), f, ok) <= KeySet(s, f, ok) - {f(s[i])}
  {
    var v := s[i];
    var d := DropValue(s, v);
    forall k | k in KeySet(d, f, ok) ensures k in KeySet(s, f, ok) - {f(v)} {
      var m :| 0 <= m < |d| && f(d[m]) == k;
      assert d[m] in s && d[m] != v;
      var j :| 0 <= j < |s| && s[j] == d[m];
      assert j != i;
    }
  }

  /** Appending an element and dropping it again gives the list back. */
  lemma LemmaDropValueAppend<T(!new)>(s: seq<T>, x: T)
    requires x !in s
    ensures DropValue(s + [x], x) == s
  {
    LemmaFilterAppend(s, [x], y => y != x);
    assert Filter([x], y => y != x) == [];
  }

  /** Appending an element with a new key and dropping that key gives the
      list back. */
  lemma LemmaDropKeyAppend<T(!new), K(!new)>(s: seq<T>, x: T, f: T -> K)
    requires forall y :: y in s ==> f(y) != f(x)
    ensures DropKey(s + [x], f, f(x)) == s
  {
    var keep := y => f(y) != f(x);
    forall i | 0 <= i < |s| ensures keep(s[i]) {
      assert s[i] in s;
    }
    LemmaFilterAppend(s, [x], keep);
    assert Filter([x], keep) == [];
  }

  /** Dropping a key distributes over concatenation: the kept elements stay
      in their order. */
  lemma LemmaDropKeyConcat<T(!new), K(!new)>(a: seq<T>, b: seq<T>, f: T -> K, key: K)
    ensures DropKey(a + b, f, key) == DropKey(a, f, key) + DropKey(b, f, key)
  {
    LemmaFilterAppend(a, b, x => f(x) != key);
  }

  /** Dropping a value distributes over concatenation. */
  lemma LemmaDropValueConcat<T(!new)>(a: seq<T>, b: seq<T>, v: T)
    ensures DropValue(a + b, v) == DropValue(a, v) + DropValue(b, v)
  {
    LemmaFilterAppend(a, b, x => x != v);
  }

  /** Dropping keeps the keys distinct. */
  lemma LemmaDropKeepsDistinct<T(!new), K(!new)>(s: seq<T>, f: T -> K, key: K, v: T)
    requires DistinctBy(s, f)
    ensures DistinctBy(DropKey(s, f, key), f)
    ensures DistinctBy(DropValue(s, v), f)
  {
    LemmaFilterDistinctBy(s, x => f(x) != key, f);
    LemmaFilterDistinctBy(s, x => x != v, f);
  }

  /** Two unions in a row are one union (kept apart so that callers with
      large contexts need no set extensionality). */
  lemma LemmaUnionStep<K>(a0: set<K>, a1: set<K>, a2: set<K>, x: set<K>, y: set<K>)
    ensures a1 == a0 + x && a2 == a1 + y ==> a2 == a0 + (x + y)
  {
  }

  /** Updating a map at a key adds that key to the domain. */
  lemma LemmaUpdateKeys<K, V>(m: map<K, V>, k: K, v: V)
    ensures m[k := v].Keys == m.Keys + {k}
  {
  }

  /** Adding nothing new leaves a set as it is. */
  lemma LemmaUnionNothingNew<K>(a: set<K>, x: set<K>)
    requires forall k :: k in x ==> k in a
    ensures a + x == a
  {
  }
}

=== FILE: normalize.dfy ===
/**
  The text normalizers of the Wordstat collector (content.js:47-84, the text
  fallback of `getCurrentPhrase` at content.js:101-109 and the splitter of
  the "add" panel at content.js:440-444). All of them are pure functions of
  their arguments; the settings flags they consult are passed explicitly.
 */
module Normalize {
  import opened Chars
  import opened Seqs

  // ---------------------------------------------------------------------
  // Shapes of normalized text
  // ---------------------------------------------------------------------

  /** Neither the first nor the last character is whitespace. */
  ghost predicate NoOuterSpace(s: string) {
    |s| == 0 || (!IsSpace(s[0]) && !IsSpace(s[|s| - 1]))
  }

  /** Every whitespace character is a plain space. */
  ghost predicate OnlyPlainSpaces(s: string) {
    forall i :: 0 <= i < |s| && IsSpace(s[i]) ==> s[i] == ' '
  }

  /** No two neighbouring characters are both whitespace. */
  ghost predicate NoDoubleSpace(s: string) {
    forall i, j :: 0 <= i && j == i + 1 && j < |s| ==> !IsSpace(s[i]) || !IsSpace(s[j])
  }

  /** The shape `normalizePhrase` promises: single plain spaces between words
      and none at either end. */
  ghost predicate IsNormalPhrase(s: string) {
    NoOuterSpace(s) && OnlyPlainSpaces(s) && NoDoubleSpace(s)
  }

  // ---------------------------------------------------------------------
  // Keys of minus words
  // ---------------------------------------------------------------------

  /** `normalizeBase`: strips the leading run of `!`/`+` operators. */
  function NormalizeBase(word: string): (r: string)
    ensures |r| <= |word| && r == word[|word| - |r|..]
    ensures |r| == 0 || !IsMarker(r[0])
    ensures forall i :: 0 <= i < |word| - |r| ==> IsMarker(word[i])
  {
    DropWhile(word, IsMarker)
  }

  /** Markers in front of a word never change its base. */
  lemma {:induction false} LemmaNormalizeBaseIgnoresMarkers(prefix: string, word: string)
    requires forall i :: 0 <= i < |prefix| ==> IsMarker(prefix[i])
    ensures NormalizeBase(prefix + word) == NormalizeBase(word)
    decreases |prefix|
  {
    if |prefix| > 0 {
      assert (prefix + word)[1..] == prefix[1..] + word;
      LemmaNormalizeBaseIgnoresMarkers(prefix[1..], word);
    } else {
      assert prefix + word == word;
    }
  }

  /** Stripping the base twice strips nothing more. */
  lemma LemmaNormalizeBaseIdempotent(word: string)
    ensures NormalizeBase(NormalizeBase(word)) == NormalizeBase(word)
  {
    LemmaDropWhileIdempotent(word, IsMarker);
  }

  function LowerString(s: string): (r: string)
    ensures |r| == |s|
    ensures forall i :: 0 <= i < |s| ==> r[i] == Lower(s[i])
  {
    seq(|s|, i requires 0 <= i < |s| => Lower(s[i]))
  }

  /** Lower-casing twice changes nothing more. */
  lemma LemmaLowerStringIdempotent(s: string)
    ensures LowerString(LowerString(s)) == LowerString(s)
  {
    forall i | 0 <= i < |s| ensures LowerString(LowerString(s))[i] == LowerString(s)[i] {
      LemmaLowerIdempotent(s[i]);
    }
  }

  /** `normalizeMinusKey`: the case-insensitive identity of a minus word. */
  function NormalizeMinusKey(word: string): (r: string)
    ensures |r| == |NormalizeBase(word)|
    ensures |r| == 0 || !IsMarker(r[0])
    ensures forall i :: 0 <= i < |r| ==> !IsUpper(r[i])
    ensures forall i :: 0 <= i < |r| ==> r[i] == Lower(NormalizeBase(word)[i])
  {
    LowerString(NormalizeBase(word))
  }

  /** Two words share a minus key exactly when their bases have the same
      length and agree letter by letter up to case: the key identifies a
      minus word and nothing coarser. */
  lemma LemmaMinusKeyEqualIff(a: string, b: string)
    ensures NormalizeMinusKey(a) == NormalizeMinusKey(b) <==>
      && |NormalizeBase(a)| == |NormalizeBase(b)|
      && forall i :: 0 <= i < |NormalizeBase(a)| ==>
           Lower(NormalizeBase(a)[i]) == Lower(NormalizeBase(b)[i])
  {
    var ka, kb := NormalizeMinusKey(a), NormalizeMinusKey(b);
    if ka == kb {
      forall i | 0 <= i < |NormalizeBase(a)|
        ensures Lower(NormalizeBase(a)[i]) == Lower(NormalizeBase(b)[i])
      {
        assert ka[i] == kb[i];
      }
    }
  }

  /** Lower-casing keeps the operators, so it commutes with stripping them. */
  lemma {:induction false} LemmaBaseOfLower(w: string)
    ensures NormalizeBase(LowerString(w)) == LowerString(NormalizeBase(w))
    decreases |w|
  {
    if |w| > 0 && IsMarker(w[0]) {
      assert LowerString(w)[1..] == LowerString(w[1..]);
      assert IsMarker(LowerString(w)[0]);
      LemmaBaseOfLower(w[1..]);
    } else if |w| > 0 {
      assert !IsMarker(LowerString(w)[0]);
    }
  }

  /** The key ignores case: a word and its lower-cased form are one minus
      word. */
  lemma LemmaMinusKeyIgnoresCase(w: string)
    ensures NormalizeMinusKey(LowerString(w)) == NormalizeMinusKey(w)
  {
    LemmaBaseOfLower(w);
    LemmaLowerStringIdempotent(NormalizeBase(w));
  }

  /** Two words that agree letter by letter up to case have the same key. */
  lemma LemmaMinusKeyCaseInsensitive(a: string, b: string)
    requires |a| == |b| && forall i :: 0 <= i < |a| ==> Lower(a[i]) == Lower(b[i])
    ensures NormalizeMinusKey(a) == NormalizeMinusKey(b)
  {
    assert LowerString(a) == LowerString(b);
    LemmaMinusKeyIgnoresCase(a);
    LemmaMinusKeyIgnoresCase(b);
  }

  /** Markers in front of a word never change its key, so `!+w`, `+w` and `w`
      are one minus word. */
  lemma LemmaMinusKeyIgnoresMarkers(prefix: string, word: string)
    requires forall i :: 0 <= i < |prefix| ==> IsMarker(prefix[i])
    ensures NormalizeMinusKey(prefix + word) == NormalizeMinusKey(word)
  {
    LemmaNormalizeBaseIgnoresMarkers(prefix, word);
  }

  /** The key of a word equals the key of its base. */
  lemma LemmaMinusKeyOfBase(word: string)
    ensures NormalizeMinusKey(NormalizeBase(word)) == NormalizeMinusKey(word)
  {
    LemmaNormalizeBaseIdempotent(word);
  }

  // ---------------------------------------------------------------------
  // Operator prefixes of stored minus words
  // ---------------------------------------------------------------------

  /** `applyPrefixes`: first `!` unless already there, then `+` unless
      already there, each only when its setting is on. */
  function ApplyPrefixes(baseWord: string, addBang: bool, addPlus: bool): (r: string)
    ensures r == baseWord || r == "!" + baseWord || r == "+" + baseWord || r == "+!" + baseWord
  {
    var w := PrependUnlessPresent('!', baseWord, addBang);
    PrependUnlessPresent('+', w, addPlus)
  }

  /** Puts `marker` in front of `w` when `on` and `w` does not already start
      with it (`if (on && !w.startsWith(marker)) w = marker + w`). */
  function PrependUnlessPresent(marker: char, w: string, on: bool): (r: string)
    ensures r == w || r == [marker] + w
    ensures r == [marker] + w <==> on && !(|w| > 0 && w[0] == marker)
  {
    if on && !(|w| > 0 && w[0] == marker) then [marker] + w else w
  }

  /** The operators `applyPrefixes` adds never change the base of a word. */
  lemma LemmaApplyPrefixesKeepsBase(baseWord: string, addBang: bool, addPlus: bool)
    ensures NormalizeBase(ApplyPrefixes(baseWord, addBang, addPlus)) == NormalizeBase(baseWord)
  {
    var r := ApplyPrefixes(baseWord, addBang, addPlus);
    var prefix := r[..|r| - |baseWord|];
    assert r == prefix + baseWord;
    LemmaNormalizeBaseIgnoresMarkers(prefix, baseWord);
  }

  /** On a stripped, nonempty base the stored form is exactly
      ("+" if addPlus) ++ ("!" if addBang) ++ base. */
  lemma LemmaApplyPrefixesShape(base: string, addBang: bool, addPlus: bool)
    requires |base| > 0 && !IsMarker(base[0])
    ensures ApplyPrefixes(base, addBang, addPlus)
         == (if addPlus then "+" else "") + (if addBang then "!" else "") + base
  {
  }

  /** The stored form of a minus word has the key of the word it came from. */
  lemma LemmaStoredFormKeepsKey(word: string, addBang: bool, addPlus: bool)
    ensures NormalizeMinusKey(ApplyPrefixes(NormalizeBase(word), addBang, addPlus)) == NormalizeMinusKey(word)
  {
    LemmaApplyPrefixesKeepsBase(NormalizeBase(word), addBang, addPlus);
    LemmaMinusKeyOfBase(word);
  }

  /** `applyPrefixes` is not idempotent when both settings are on: an input
      that already carries `+!` gets a second pair of operators. */
  lemma LemmaApplyPrefixesNotIdempotent()
    ensures ApplyPrefixes("+!w", true, true) == "+!+!w"
    ensures ApplyPrefixes(ApplyPrefixes("w", true, true), true, true) != ApplyPrefixes("w", true, true)
  {
    assert "+!w"[0] == '+';
    assert PrependUnlessPresent('!', "+!w", true) == "!+!w";
    assert "!+!w"[0] == '!';
    assert PrependUnlessPresent('+', "!+!w", true) == "+!+!w";
    assert PrependUnlessPresent('!', "w", true) == "!w";
    assert "!w"[0] == '!';
    assert PrependUnlessPresent('+', "!w", true) == "+!w";
    assert |"+!+!w"| != |"+!w"|;
  }

  // ---------------------------------------------------------------------
  // Tokens taken from the results page
  // ---------------------------------------------------------------------

  /** `tokenKeyFromRaw` (and `tokenDisplayFromRaw`, which returns the same
      text): strips a leading run of `+` only when stripPlusInPhrases is on. */
  function TokenKey(raw: string, stripPlus: bool): (r: string)
    ensures !stripPlus ==> r == raw
    ensures |r| <= |raw| && r == raw[|raw| - |r|..]
    ensures stripPlus ==> |r| == 0 || r[0] != '+'
    ensures forall i :: 0 <= i < |raw| - |r| ==> raw[i] == '+'
    ensures NormalizeBase(r) == NormalizeBase(raw)
  {
    if stripPlus then
      LemmaDropPlusKeepsBase(raw);
      DropWhile(raw, IsPlus)
    else raw
  }

  /** Stripping leading `+` first does not change the base. */
  lemma {:induction false} LemmaDropPlusKeepsBase(raw: string)
    ensures NormalizeBase(DropWhile(raw, IsPlus)) == NormalizeBase(raw)
    decreases |raw|
  {
    if |raw| > 0 && raw[0] == '+' {
      LemmaDropPlusStep(raw);
      LemmaDropPlusKeepsBase(raw[1..]);
    } else {
      assert DropWhile(raw, IsPlus) == raw;
    }
  }

  lemma LemmaDropPlusStep(raw: string)
    requires |raw| > 0 && raw[0] == '+'
    ensures DropWhile(raw, IsPlus) == DropWhile(raw[1..], IsPlus)
    ensures NormalizeBase(raw) == NormalizeBase(raw[1..])
  {
  }

  /** The minus key of a page token: `normalizeMinusKey(tokenKeyFromRaw(t))`.
      Since the key strips every leading operator anyway, the
      stripPlusInPhrases setting changes how a token is shown but never which
      minus word it matches. */
  function TokenMinusKey(raw: string, stripPlus: bool): (r: string)
    ensures r == NormalizeMinusKey(raw)
  {
    NormalizeMinusKey(TokenKey(raw, stripPlus))
  }

  // ---------------------------------------------------------------------
  // Whitespace: `replace(/\s+/g, " ")`, `trim()` and `split(/\s+/)`
  // ---------------------------------------------------------------------

  /** `replace(/\s+/g, " ")`: every maximal whitespace run becomes one space. */
  function Collapse(s: string): (r: string)
    ensures |s| > 0 && !IsSpace(s[0]) ==> |r| > 0 && r[0] == s[0]
    decreases |s|
  {
    if |s| == 0 then []
    else if IsSpace(s[0]) then [' '] + Collapse(DropWhile(s, IsSpace))
    else [s[0]] + Collapse(s[1..])
  }

  /** Removes trailing whitespace. */
  function TrimEnd(s: string): (r: string)
    ensures |r| <= |s| && r == s[..|r|]
    ensures |r| == 0 || !IsSpace(r[|r| - 1])
    ensures forall i :: |r| <= i < |s| ==> IsSpace(s[i])
    decreases |s|
  {
    if |s| > 0 && IsSpace(s[|s| - 1]) then TrimEnd(s[..|s| - 1]) else s
  }

  /** `String.prototype.trim`. */
  function Trim(s: string): (r: string)
    ensures NoOuterSpace(r)
    ensures |r| == 0 <==> forall i :: 0 <= i < |s| ==> IsSpace(s[i])
    ensures NoOuterSpace(s) ==> r == s
  {
    var t := DropWhile(s, IsSpace);
    var r := TrimEnd(t);
    assert |r| == 0 ==> |t| == 0;
    r
  }

  /** `splitWords`: the maximal non-whitespace runs of a phrase. */
  function SplitWords(phrase: string): (r: seq<string>)
    ensures forall i :: 0 <= i < |r| ==> IsRun(r[i], IsSpace)
  {
    Runs(phrase, IsSpace)
  }

  /** `normalizePhrase`: whitespace runs collapsed to one space, then
      trimmed. It is the words of the phrase joined with single spaces. */
  function NormalizePhrase(s: string): (r: string)
    ensures r == Join(SplitWords(s), ' ')
  {
    LemmaNormalizePhraseIsJoinedWords(s);
    Trim(Collapse(s))
  }

  /** A normalized phrase has no outer space, only plain spaces, and no two
      spaces in a row. */
  lemma LemmaNormalizePhraseShape(s: string)
    ensures IsNormalPhrase(NormalizePhrase(s))
  {
    LemmaJoinedWordsShape(SplitWords(s));
  }

  /** A word followed by anything collapses as the word followed by the
      collapsed rest. */
  lemma {:induction false} LemmaCollapseWord(w: string, rest: string)
    requires forall i :: 0 <= i < |w| ==> !IsSpace(w[i])
    ensures Collapse(w + rest) == w + Collapse(rest)
    decreases |w|
  {
    if |w| == 0 {
      assert w + rest == rest;
    } else {
      assert (w + rest)[1..] == w[1..] + rest;
      LemmaCollapseWord(w[1..], rest);
      assert [w[0]] + (w[1..] + Collapse(rest)) == w + Collapse(rest);
    }
  }

  /** Trailing trimming does not reach into a prefix when the suffix has a
      non-whitespace character. */
  lemma {:induction false} LemmaTrimEndAppend(x: string, y: string)
    requires |TrimEnd(y)| > 0
    ensures TrimEnd(x + y) == x + TrimEnd(y)
    decreases |y|
  {
    if IsSpace(y[|y| - 1]) {
      assert (x + y)[..|x + y| - 1] == x + y[..|y| - 1];
      LemmaTrimEndAppend(x, y[..|y| - 1]);
    }
  }

  /** A word has no trailing whitespace to trim, and one space after it is
      trimmed away. */
  lemma LemmaTrimEndWord(w: string)
    requires IsRun(w, IsSpace)
    ensures TrimEnd(w) == w
    ensures TrimEnd(w + [' ']) == w
  {
    assert (w + [' '])[..|w|] == w;
  }

  /** Core of the whitespace proof, for text with no leading whitespace. */
  lemma {:induction false} LemmaTrimEndCollapse(s: string)
    requires |s| == 0 || !IsSpace(s[0])
    ensures TrimEnd(Collapse(s)) == Join(SplitWords(s), ' ')
    decreases |s|
  {
    if |s| > 0 {
      var w := TakeUntil(s, IsSpace);
      var rest := s[|w|..];
      assert s == w + rest;
      assert IsRun(w, IsSpace);
      LemmaRunsCons(w, rest, IsSpace);
      LemmaCollapseWord(w, rest);
      LemmaTrimEndWord(w);
      if |rest| == 0 {
        assert w + [] == w;
      } else {
        var r2 := DropWhile(rest, IsSpace);
        assert Collapse(rest) == [' '] + Collapse(r2);
        LemmaRunsDropsLeading(rest, IsSpace);
        if |r2| == 0 {
          LemmaConcatAssoc(w, [' '], []);
        } else {
          LemmaTrimEndCollapse(r2);
          LemmaTrimEndCollapseStep(w, r2);
        }
      }
    }
  }

  /** The inductive step of `LemmaTrimEndCollapse`: a word, a space, and text
      starting with a non-whitespace character. */
  lemma LemmaTrimEndCollapseStep(w: string, r2: string)
    requires IsRun(w, IsSpace)
    requires |r2| > 0 && !IsSpace(r2[0])
    requires TrimEnd(Collapse(r2)) == Join(SplitWords(r2), ' ')
    ensures TrimEnd(w + ([' '] + Collapse(r2))) == Join([w] + SplitWords(r2), ' ')
  {
    var c2 := Collapse(r2);
    var ws2 := SplitWords(r2);
    assert |ws2| > 0;
    LemmaTrimEndAppend(w + [' '], c2);
    LemmaConcatAssoc(w, [' '], c2);
    LemmaConcatAssoc(w, [' '], Join(ws2, ' '));
    LemmaJoinCons([w] + ws2, ' ');
    assert ([w] + ws2)[1..] == ws2;
  }

  /** `normalizePhrase` equals the words of the phrase joined by spaces. */
  lemma LemmaNormalizePhraseIsJoinedWords(s: string)
    ensures Trim(Collapse(s)) == Join(SplitWords(s), ' ')
  {
    var s' := DropWhile(s, IsSpace);
    LemmaTrimEndCollapse(s');
    LemmaRunsDropsLeading(s, IsSpace);
    LemmaDropWhileCollapse(s);
  }

  /** Leading whitespace of the collapsed text is the collapsed leading
      whitespace. */
  lemma LemmaDropWhileCollapse(s: string)
    ensures DropWhile(Collapse(s), IsSpace) == Collapse(DropWhile(s, IsSpace))
  {
    var s' := DropWhile(s, IsSpace);
    if |s| > 0 && IsSpace(s[0]) {
      assert Collapse(s) == [' '] + Collapse(s');
      assert ([' '] + Collapse(s'))[1..] == Collapse(s');
    }
  }

  /** Words joined by single spaces have the shape of a normalized phrase. */
  lemma {:induction false} LemmaJoinedWordsShape(ws: seq<string>)
    requires forall i :: 0 <= i < |ws| ==> IsRun(ws[i], IsSpace)
    ensures IsNormalPhrase(Join(ws, ' '))
    decreases |ws|
  {
    LemmaJoinHead(ws, ' ');
    if |ws| > 1 {
      var w, rest := ws[0], ws[1..];
      assert forall i :: 0 <= i < |rest| ==> IsRun(rest[i], IsSpace) by {
        forall i | 0 <= i < |rest| ensures IsRun(rest[i], IsSpace) {
          assert rest[i] == ws[i + 1];
        }
      }
      LemmaJoinedWordsShape(rest);
      LemmaJoinHead(rest, ' ');
      LemmaJoinCons(ws, ' ');
      var jr := Join(rest, ' ');
      var j := Join(ws, ' ');
      assert j == w + ([' '] + jr);
      assert IsRun(w, IsSpace);
      forall k | 0 <= k < |j|
        ensures j[k] == (if k < |w| then w[k] else if k == |w| then ' ' else jr[k - |w| - 1])
      {
      }
      forall k | 0 <= k < |j| && IsSpace(j[k])
        ensures j[k] == ' '
      {
        if k > |w| {
          assert j[k] == jr[k - |w| - 1];
        }
      }
      forall k, k' | 0 <= k && k' == k + 1 && k' < |j|
        ensures !IsSpace(j[k]) || !IsSpace(j[k'])
      {
        if k > |w| {
          assert j[k] == jr[k - |w| - 1] && j[k'] == jr[k' - |w| - 1];
        }
      }
    }
  }

  /** Every character satisfies `q`. */
  ghost predicate AllChars(s: string, q: char -> bool) {
    forall i :: 0 <= i < |s| ==> q(s[i])
  }

  /** Collapsing only introduces plain spaces. */
  lemma {:induction false} LemmaCollapseKeeps(s: string, q: char -> bool)
    requires q(' ') && AllChars(s, q)
    ensures AllChars(Collapse(s), q)
    decreases |s|
  {
    if |s| > 0 {
      if IsSpace(s[0]) {
        var t := DropWhile(s, IsSpace);
        LemmaAllCharsSuffix(s, |s| - |t|, q);
        LemmaCollapseKeeps(t, q);
        LemmaAllCharsCons(' ', Collapse(t), q);
      } else {
        LemmaAllCharsSuffix(s, 1, q);
        LemmaCollapseKeeps(s[1..], q);
        LemmaAllCharsCons(s[0], Collapse(s[1..]), q);
      }
    }
  }

  lemma LemmaAllCharsSuffix(s: string, k: nat, q: char -> bool)
    requires k <= |s| && AllChars(s, q)
    ensures AllChars(s[k..], q)
  {
    forall i | 0 <= i < |s| - k ensures q(s[k..][i]) {
      assert s[k..][i] == s[i + k];
    }
  }

  lemma LemmaAllCharsCons(c: char, s: string, q: char -> bool)
    requires q(c) && AllChars(s, q)
    ensures AllChars([c] + s, q)
  {
    forall i | 0 <= i < |s| + 1 ensures q(([c] + s)[i]) {
      if i > 0 {
        assert ([c] + s)[i] == s[i - 1];
      }
    }
  }

  /** Trimming only removes characters. */
  lemma LemmaTrimKeeps(s: string, q: char -> bool)
    requires AllChars(s, q)
    ensures AllChars(Trim(s), q)
  {
    var t := DropWhile(s, IsSpace);
    LemmaAllCharsSuffix(s, |s| - |t|, q);
    var r := TrimEnd(t);
    assert AllChars(r, q) by {
      forall i | 0 <= i < |r| ensures q(r[i]) {
        assert r[i] == t[i];
      }
    }
  }

  /** Normalizing a phrase only introduces plain spaces. */
  lemma LemmaNormalizePhraseKeeps(s: string, q: char -> bool)
    requires q(' ') && AllChars(s, q)
    ensures AllChars(NormalizePhrase(s), q)
  {
    LemmaCollapseKeeps(s, q);
    LemmaTrimKeeps(Collapse(s), q);
  }

  /** Normalizing a phrase twice changes nothing more. */
  lemma LemmaNormalizePhraseIdempotent(s: string)
    ensures NormalizePhrase(NormalizePhrase(s)) == NormalizePhrase(s)
  {
    LemmaRunsOfJoin(SplitWords(s), ' ', IsSpace);
  }

  /** A normalized phrase has the same words as the phrase it came from. */
  lemma LemmaSplitNormalizedPhrase(s: string)
    ensures SplitWords(NormalizePhrase(s)) == SplitWords(s)
  {
    LemmaRunsOfJoin(SplitWords(s), ' ', IsSpace);
  }

  // ---------------------------------------------------------------------
  // Phrase text of a results-page node (fallback of `getCurrentPhrase`)
  // ---------------------------------------------------------------------

  /** The operator glyphs the fallback removes: `+`, `−` (U+2212) and `-`. */
  predicate IsOperatorGlyph(c: char) {
    c == '+' || c == '\U{2212}' || c == '-'
  }

  predicate IsNotOperatorGlyph(c: char) {
    !IsOperatorGlyph(c)
  }

  /** `replace(/[+−-]/g, " ")`. */
  function BlankOperators(text: string): (r: string)
    ensures |r| == |text|
    ensures forall i :: 0 <= i < |text| ==> r[i] == if IsOperatorGlyph(text[i]) then ' ' else text[i]
  {
    seq(|text|, i requires 0 <= i < |text| => if IsOperatorGlyph(text[i]) then ' ' else text[i])
  }

  /** The text fallback of `getCurrentPhrase`: the node's text with operator
      glyphs blanked, then normalized like a phrase. */
  function PhraseFromText(text: string): (r: string)
    ensures IsNormalPhrase(r)
    ensures forall i :: 0 <= i < |r| ==> !IsOperatorGlyph(r[i])
    ensures SplitWords(r) == SplitWords(BlankOperators(text))
    ensures NormalizePhrase(r) == r
  {
    var b := BlankOperators(text);
    LemmaNormalizePhraseIdempotent(b);
    LemmaSplitNormalizedPhrase(b);
    LemmaNormalizePhraseShape(b);
    LemmaBlankedHasNoGlyphs(text);
    LemmaNormalizePhraseKeeps(b, IsNotOperatorGlyph);
    NormalizePhrase(b)
  }

  lemma LemmaBlankedHasNoGlyphs(text: string)
    ensures IsNotOperatorGlyph(' ')
    ensures AllChars(BlankOperators(text), IsNotOperatorGlyph)
  {
    var b := BlankOperators(text);
    forall i | 0 <= i < |b| ensures IsNotOperatorGlyph(b[i]) {
    }
  }

  /** `getCurrentPhrase`: the phrase carried by the node's link when there is
      one (extracted outside this model), otherwise the text fallback. */
  function CurrentPhrase(hrefPhrase: string, text: string): (r: string)
    ensures |hrefPhrase| > 0 ==> r == hrefPhrase
    ensures |hrefPhrase| == 0 ==> IsNormalPhrase(r) && NormalizePhrase(r) == r
    ensures NoOuterSpace(hrefPhrase) ==> NoOuterSpace(r)
  {
    if |hrefPhrase| > 0 then hrefPhrase else PhraseFromText(text)
  }

  // ---------------------------------------------------------------------
  // Batch input of the "add" panel
  // ---------------------------------------------------------------------

  /** Separators of the batch input: newline, comma and semicolon. */
  predicate IsBatchDelimiter(c: char) {
    c == '\n' || c == ',' || c == ';'
  }

  predicate IsNotBatchDelimiter(c: char) {
    !IsBatchDelimiter(c)
  }

  /** One item of a split batch: nonempty, trimmed, free of separators. */
  ghost predicate IsBatchItem(s: string) {
    IsRun(s, IsBatchDelimiter) && NoOuterSpace(s)
  }

  datatype BatchInput = EmptyInput | Items(items: seq<string>)

  /** The "add" panel's splitter: the trimmed input, when nonempty, split on
      runs of separators, each piece trimmed and the empty pieces dropped.
      (`split` may also yield empty pieces before the first or after the last
      separator run; `filter(Boolean)` drops those, so they are never made.) */
  function SplitBatch(input: string): (r: BatchInput)
    ensures r.EmptyInput? <==> forall i :: 0 <= i < |input| ==> IsSpace(input[i])
    ensures r.Items? ==> forall i :: 0 <= i < |r.items| ==> IsBatchItem(r.items[i])
  {
    var raw := Trim(input);
    if |raw| == 0 then EmptyInput else Items(TrimItems(Runs(raw, IsBatchDelimiter)))
  }

  /** `map(s => s.trim()).filter(Boolean)` over the pieces. */
  function TrimItems(pieces: seq<string>): (r: seq<string>)
    requires forall i :: 0 <= i < |pieces| ==> IsRun(pieces[i], IsBatchDelimiter)
    ensures forall i :: 0 <= i < |r| ==> IsBatchItem(r[i])
    decreases |pieces|
  {
    if |pieces| == 0 then []
    else
      var t := Trim(pieces[0]);
      LemmaTrimmedPieceIsItem(pieces[0]);
      LemmaRunsTail(pieces, IsBatchDelimiter);
      var rest := TrimItems(pieces[1..]);
      LemmaItemsCons(t, rest);
      if |t| > 0 then [t] + rest else rest
  }

  /** Pieces that are items already come through trimming unchanged. */
  lemma {:induction false} LemmaTrimItemsKeepsItems(pieces: seq<string>)
    requires forall i :: 0 <= i < |pieces| ==> IsBatchItem(pieces[i])
    ensures forall i :: 0 <= i < |pieces| ==> IsRun(pieces[i], IsBatchDelimiter)
    ensures TrimItems(pieces) == pieces
    decreases |pieces|
  {
    assert forall i :: 0 <= i < |pieces| ==> IsRun(pieces[i], IsBatchDelimiter);
    if |pieces| > 0 {
      LemmaTrimmedPieceIsItem(pieces[0]);
      var tail := pieces[1..];
      assert forall i :: 0 <= i < |tail| ==> IsBatchItem(tail[i]) by {
        forall i | 0 <= i < |tail| ensures IsBatchItem(tail[i]) {
          assert tail[i] == pieces[i + 1];
        }
      }
      LemmaTrimItemsKeepsItems(tail);
      assert [pieces[0]] + tail == pieces;
    }
  }

  /** A trimmed piece of the split is an item, or empty. */
  lemma LemmaTrimmedPieceIsItem(piece: string)
    requires IsRun(piece, IsBatchDelimiter)
    ensures |Trim(piece)| > 0 ==> IsBatchItem(Trim(piece))
    ensures IsBatchItem(piece) ==> Trim(piece) == piece
  {
    forall i | 0 <= i < |piece| ensures IsNotBatchDelimiter(piece[i]) {
    }
    LemmaTrimKeeps(piece, IsNotBatchDelimiter);
    var t := Trim(piece);
    forall i | 0 <= i < |t| ensures !IsBatchDelimiter(t[i]) {
      assert IsNotBatchDelimiter(t[i]);
    }
  }

  lemma LemmaRunsTail<T>(ws: seq<seq<T>>, p: T -> bool)
    requires |ws| > 0 && forall i :: 0 <= i < |ws| ==> IsRun(ws[i], p)
    ensures forall i :: 0 <= i < |ws| - 1 ==> IsRun(ws[1..][i], p)
  {
    forall i | 0 <= i < |ws| - 1 ensures IsRun(ws[1..][i], p) {
      assert ws[1..][i] == ws[i + 1];
    }
  }

  lemma LemmaItemsCons(t: string, rest: seq<string>)
    requires |t| > 0 ==> IsBatchItem(t)
    requires forall i :: 0 <= i < |rest| ==> IsBatchItem(rest[i])
    ensures var r := if |t| > 0 then [t] + rest else rest;
      forall i :: 0 <= i < |r| ==> IsBatchItem(r[i])
  {
    if |t| > 0 {
      forall i | 0 <= i < |rest| + 1 ensures IsBatchItem(([t] + rest)[i]) {
        if i > 0 {
          assert ([t] + rest)[i] == rest[i - 1];
        }
      }
    }
  }

  /** Items joined with any separator split back into the same items. */
  lemma LemmaSplitBatchOfJoin(items: seq<string>, sep: char)
    requires |items| > 0 && IsBatchDelimiter(sep)
    requires forall i :: 0 <= i < |items| ==> IsBatchItem(items[i])
    ensures SplitBatch(Join(items, sep)) == Items(items)
  {
    var j := Join(items, sep);
    LemmaJoinedItemsTrimmed(items, sep);
    assert Trim(j) == j;
    assert forall i :: 0 <= i < |items| ==> IsRun(items[i], IsBatchDelimiter);
    LemmaRunsOfJoin(items, sep, IsBatchDelimiter);
    LemmaTrimItemsKeepsItems(items);
  }

  /** A join of items is nonempty and has no outer whitespace. */
  lemma LemmaJoinedItemsTrimmed(items: seq<string>, sep: char)
    requires |items| > 0
    requires forall i :: 0 <= i < |items| ==> IsBatchItem(items[i])
    ensures var j := Join(items, sep); |j| > 0 && NoOuterSpace(j)
  {
    LemmaJoinHead(items, sep);
    var last := items[|items| - 1];
    assert IsBatchItem(items[0]) && IsBatchItem(last);
  }
}

=== FILE: seqs.dfy ===
/**
  Generic sequence helpers used by the text normalizers: dropping a leading
  run, taking a leading run, splitting into maximal runs, joining with a
  separator and filtering. They model the handful of JavaScript string and
  array primitives (`replace(/^x+/)`, `split(/x+/)`, `join`, `filter`) that
  the content script relies on.
 */
module Seqs {

  /** `w` is a nonempty run none of whose elements satisfies `p`. */
  ghost predicate IsRun<T>(w: seq<T>, p: T -> bool) {
    |w| > 0 && forall i :: 0 <= i < |w| ==> !p(w[i])
  }

  /** No element occurs twice. */
  ghost predicate NoDup<T>(s: seq<T>) {
    forall i, j :: 0 <= i < j < |s| ==> s[i] != s[j]
  }

  /** No two elements share an `f`-image (elements are distinct by key). */
  ghost predicate DistinctBy<T, K>(s: seq<T>, f: T -> K) {
    forall i, j :: 0 <= i < j < |s| ==> f(s[i]) != f(s[j])
  }

  /** Drops the longest prefix of `s` whose elements all satisfy `p`
      (the model of `replace(/^[...]+/, "")`). */
  function DropWhile<T>(s: seq<T>, p: T -> bool): (r: seq<T>)
    ensures |r| <= |s| && r == s[|s| - |r|..]
    ensures |r| == 0 || !p(r[0])
    ensures forall i :: 0 <= i < |s| - |r| ==> p(s[i])
    decreases |s|
  {
    if |s| > 0 && p(s[0]) then DropWhile(s[1..], p) else s
  }

  /** The longest prefix of `s` none of whose elements satisfies `p`. */
  function TakeUntil<T>(s: seq<T>, p: T -> bool): (r: seq<T>)
    ensures |r| <= |s| && r == s[..|r|]
    ensures forall i :: 0 <= i < |r| ==> !p(r[i])
    ensures |r| == |s| || p(s[|r|])
    decreases |s|
  {
    if |s| > 0 && !p(s[0]) then [s[0]] + TakeUntil(s[1..], p) else []
  }

  /** The maximal runs of elements not satisfying `p`, in order: the model of
      `s.split(/p+/).filter(t => t.length > 0)`. */
  function Runs<T>(s: seq<T>, p: T -> bool): (r: seq<seq<T>>)
    ensures forall i :: 0 <= i < |r| ==> IsRun(r[i], p)
    decreases |s|
  {
    var t := DropWhile(s, p);
    if |t| == 0 then []
    else
      var w := TakeUntil(t, p);
      assert |w| > 0 && IsRun(w, p);
      var rest := Runs(t[|w|..], p);
      LemmaConsOfRuns(w, rest, p);
      [w] + rest
  }

  /** Prepending a run to a sequence of runs gives a sequence of runs. */
  lemma LemmaConsOfRuns<T>(w: seq<T>, ws: seq<seq<T>>, p: T -> bool)
    requires IsRun(w, p)
    requires forall i :: 0 <= i < |ws| ==> IsRun(ws[i], p)
    ensures forall i :: 0 <= i < |[w] + ws| ==> IsRun(([w] + ws)[i], p)
  {
    forall i | 0 <= i < |[w] + ws|
      ensures IsRun(([w] + ws)[i], p)
    {
      if i > 0 {
        assert ([w] + ws)[i] == ws[i - 1];
      }
    }
  }

  /** `ws` joined with one `sep` between neighbours (`Array.prototype.join`). */
  function Join<T>(ws: seq<seq<T>>, sep: T): seq<T>
    decreases |ws|
  {
    if |ws| == 0 then []
    else if |ws| == 1 then ws[0]
    else ws[0] + ([sep] + Join(ws[1..], sep))
  }

  /** The elements of `s` that `keep` accepts, in their original order
      (`Array.prototype.filter`). */
  function Filter<T(!new)>(s: seq<T>, keep: T -> bool): (r: seq<T>)
    ensures |r| <= |s|
    ensures forall x :: x in r <==> x in s && keep(x)
    ensures (forall i :: 0 <= i < |s| ==> keep(s[i])) ==> r == s
    decreases |s|
  {
    if |s| == 0 then []
    else (if keep(s[0]) then [s[0]] else []) + Filter(s[1..], keep)
  }

  /** Filtering distributes over concatenation, so it keeps relative order. */
  lemma {:induction false} LemmaFilterAppend<T(!new)>(a: seq<T>, b: seq<T>, keep: T -> bool)
    ensures Filter(a + b, keep) == Filter(a, keep) + Filter(b, keep)
    decreases |a|
  {
    if |a| == 0 {
      assert a + b == b;
    } else {
      assert (a + b)[1..] == a[1..] + b;
      LemmaFilterAppend(a[1..], b, keep);
    }
  }

  /** Dropping a run twice drops nothing more. */
  lemma LemmaDropWhileIdempotent<T>(s: seq<T>, p: T -> bool)
    ensures DropWhile(DropWhile(s, p), p) == DropWhile(s, p)
  {
  }

  /** Leading separators do not change the runs. */
  lemma LemmaRunsDropsLeading<T>(s: seq<T>, p: T -> bool)
    ensures Runs(s, p) == Runs(DropWhile(s, p), p)
  {
    LemmaDropWhileIdempotent(s, p);
  }

  /** The leading run of a run followed by a separator is that run. */
  lemma LemmaTakeUntilRun<T>(w: seq<T>, rest: seq<T>, p: T -> bool)
    requires IsRun(w, p)
    requires |rest| == 0 || p(rest[0])
    ensures TakeUntil(w + rest, p) == w
  {
    assert (w + rest)[..|w|] == w;
  }

  /** A run followed by a separator (or nothing) splits off as the first run. */
  lemma LemmaRunsCons<T>(w: seq<T>, rest: seq<T>, p: T -> bool)
    requires IsRun(w, p)
    requires |rest| == 0 || p(rest[0])
    ensures Runs(w + rest, p) == [w] + Runs(rest, p)
  {
    LemmaTakeUntilRun(w, rest, p);
    assert DropWhile(w + rest, p) == w + rest;
    assert (w + rest)[|w|..] == rest;
  }

  /** A leading separator does not change the runs. */
  lemma LemmaRunsSkipsSeparator<T>(sep: T, s: seq<T>, p: T -> bool)
    requires p(sep)
    ensures Runs([sep] + s, p) == Runs(s, p)
  {
    assert ([sep] + s)[1..] == s;
    assert DropWhile([sep] + s, p) == DropWhile(s, p);
    LemmaRunsDropsLeading([sep] + s, p);
    LemmaRunsDropsLeading(s, p);
  }

  /** Splitting a join of runs on a separator gives the runs back. */
  lemma {:induction false} LemmaRunsOfJoin<T>(ws: seq<seq<T>>, sep: T, p: T -> bool)
    requires p(sep)
    requires forall i :: 0 <= i < |ws| ==> IsRun(ws[i], p)
    ensures Runs(Join(ws, sep), p) == ws
    decreases |ws|
  {
    if |ws| == 1 {
      LemmaRunsSingle(ws[0], p);
    } else if |ws| > 1 {
      var w, rest := ws[0], ws[1..];
      var tail := Join(rest, sep);
      assert forall i :: 0 <= i < |rest| ==> IsRun(rest[i], p) by {
        forall i | 0 <= i < |rest| ensures IsRun(rest[i], p) {
          assert rest[i] == ws[i + 1];
        }
      }
      LemmaRunsOfJoin(rest, sep, p);
      LemmaJoinCons(ws, sep);
      LemmaRunsCons(w, [sep] + tail, p);
      LemmaRunsSkipsSeparator(sep, tail, p);
      calc {
        Runs(Join(ws, sep), p);
        Runs(w + ([sep] + tail), p);
        [w] + Runs([sep] + tail, p);
        [w] + Runs(tail, p);
        [w] + rest;
        { LemmaHeadTail(ws); }
        ws;
      }
    }
  }

  /** A nonempty sequence is its head followed by its tail. */
  lemma LemmaHeadTail<T>(s: seq<T>)
    requires |s| > 0
    ensures [s[0]] + s[1..] == s
  {
  }

  /** Concatenation regroups; called where an inline assertion of the same
      fact makes the surrounding proof too costly. */
  lemma LemmaConcatAssoc<T>(a: seq<T>, b: seq<T>, c: seq<T>)
    ensures (a + b) + c == a + (b + c)
  {
  }

  /** Unfolds a join of two or more pieces. */
  lemma LemmaJoinCons<T>(ws: seq<seq<T>>, sep: T)
    requires |ws| > 1
    ensures Join(ws, sep) == ws[0] + ([sep] + Join(ws[1..], sep))
  {
  }

  /** A single run splits into itself. */
  lemma LemmaRunsSingle<T>(w: seq<T>, p: T -> bool)
    requires IsRun(w, p)
    ensures Runs(w, p) == [w]
  {
    assert w + [] == w;
    LemmaRunsCons(w, [], p);
  }

  /** A nonempty join of runs starts with its first run's first element and
      ends with its last run's last element. */
  lemma {:induction false} LemmaJoinHead<T>(ws: seq<seq<T>>, sep: T)
    requires forall i :: 0 <= i < |ws| ==> |ws[i]| > 0
    ensures |ws| > 0 ==> |Join(ws, sep)| > 0 && Join(ws, sep)[0] == ws[0][0]
    ensures |ws| > 0 ==> var j := Join(ws, sep); j[|j| - 1] == ws[|ws| - 1][|ws[|ws| - 1]| - 1]
    decreases |ws|
  {
    if |ws| > 1 {
      LemmaJoinHead(ws[1..], sep);
    }
  }

  /** Appending an element whose key is new keeps the keys distinct. */
  lemma LemmaDistinctByAppend<T, K>(s: seq<T>, x: T, f: T -> K)
    requires DistinctBy(s, f)
    requires forall y :: y in s ==> f(y) != f(x)
    ensures DistinctBy(s + [x], f)
  {
    var t := s + [x];
    forall i, j | 0 <= i < j < |t| ensures f(t[i]) != f(t[j]) {
      if j == |s| {
        assert t[i] == s[i] && t[i] in s;
      } else {
        assert t[i] == s[i] && t[j] == s[j];
      }
    }
  }

  /** Filtering keeps the keys distinct. */
  lemma {:induction false} LemmaFilterDistinctBy<T(!new), K>(s: seq<T>, keep: T -> bool, f: T -> K)
    requires DistinctBy(s, f)
    ensures DistinctBy(Filter(s, keep), f)
    decreases |s|
  {
    if |s| > 0 {
      var tail := s[1..];
      assert DistinctBy(tail, f) by {
        forall i, j | 0 <= i < j < |tail| ensures f(tail[i]) != f(tail[j]) {
          assert tail[i] == s[i + 1] && tail[j] == s[j + 1];
        }
      }
      LemmaFilterDistinctBy(tail, keep, f);
      var ft := Filter(tail, keep);
      if keep(s[0]) {
        forall y | y in ft ensures f(y) != f(s[0]) {
          assert y in tail;
          var k :| 0 <= k < |tail| && tail[k] == y;
          assert s[k + 1] == y;
        }
        LemmaDistinctByCons(s[0], ft, f);
      }
    }
  }

  /** Prepending an element whose key is new keeps the keys distinct. */
  lemma LemmaDistinctByCons<T, K>(x: T, s: seq<T>, f: T -> K)
    requires DistinctBy(s, f)
    requires forall y :: y in s ==> f(y) != f(x)
    ensures DistinctBy([x] + s, f)
  {
    var t := [x] + s;
    forall i, j | 0 <= i < j < |t| ensures f(t[i]) != f(t[j]) {
      assert t[j] == s[j - 1] && t[j] in s;
      if i > 0 {
        assert t[i] == s[i - 1];
      }
    }
  }
}

=== FILE: store.dfy ===
/**
  The collection store of the content script (content.js:17-44, 121-240):
  the two stored lists, their derived lookup indexes, the settings record and
  the mutators that keep lists and indexes in step. Persistence and the
  widget re-render that follow every mutation are not modelled.
 */
module Store {
  import opened Chars
  import opened Seqs
  import opened Normalize
  import opened Index

  /** The base mode of the widget. */
  datatype Mode = Phrases | Minus

  /** The settings record (content.js:17-25). */
  datatype Settings = Settings(
    stripPlusInPhrases: bool,
    addBangPrefix: bool,
    addPlusPrefix: bool,
    mode: Mode,
    dontAskUntilPhrasesCleared: bool,
    shiftHotkeyEnabled: bool)

  const DefaultSettings := Settings(false, false, false, Phrases, false, true)

  /** The script's mutable state: the two lists, their indexes (phraseSet,
      minusSet, minusToStored), the settings and the Shift-key flag. */
  datatype State = State(
    phrases: seq<string>,
    minusWords: seq<string>,
    phraseSet: set<string>,
    minusSet: set<string>,
    minusToStored: map<string, string>,
    settings: Settings,
    shiftDown: bool)

  // ---------------------------------------------------------------------
  // Indexes
  // ---------------------------------------------------------------------

  /** Only nonempty keys are indexed (`if (key) ...`). */
  predicate NonEmpty(k: string) {
    |k| > 0
  }

  /** The indexes agree with the lists they are built from: `phraseSet` is
      what `rebuildPhraseIndex` makes of the phrases, `minusToStored` is what
      `rebuildMinusIndex` makes of the minus words (first spelling of each
      key wins) and `minusSet` is its key set. */
  ghost predicate Valid(st: State) {
    && st.phraseSet == KeySet(st.phrases, NormalizePhrase, NonEmpty)
    && st.minusToStored == FirstByKey(st.minusWords, NormalizeMinusKey, NonEmpty)
    && st.minusSet == st.minusToStored.Keys
  }

  /** No two stored phrases normalize to the same key. */
  ghost predicate PhraseKeysUnique(ps: seq<string>) {
    DistinctBy(ps, NormalizePhrase)
  }

  /** No two stored minus words share a key. */
  ghost predicate MinusKeysUnique(ws: seq<string>) {
    DistinctBy(ws, NormalizeMinusKey)
  }

  /** Replaces the phrase list and rebuilds its index. */
  function WithPhrases(st: State, ps: seq<string>): (r: State)
    ensures Valid(st) ==> Valid(r)
    ensures r.phrases == ps && r.minusWords == st.minusWords && r.minusSet == st.minusSet
    ensures r.settings == st.settings && r.shiftDown == st.shiftDown
  {
    st.(phrases := ps, phraseSet := KeySet(ps, NormalizePhrase, NonEmpty))
  }

  /** Replaces the minus list and rebuilds both of its indexes. */
  function WithMinusWords(st: State, ws: seq<string>): (r: State)
    ensures Valid(st) ==> Valid(r)
    ensures r.minusWords == ws && r.phrases == st.phrases && r.phraseSet == st.phraseSet
    ensures r.settings == st.settings && r.shiftDown == st.shiftDown
  {
    var m := FirstByKey(ws, NormalizeMinusKey, NonEmpty);
    st.(minusWords := ws, minusToStored := m, minusSet := m.Keys)
  }

  // ---------------------------------------------------------------------
  // Mutators
  // ---------------------------------------------------------------------

  /** What an add did: nothing for an empty key, an "already added" toast
      for a present key, otherwise an append. */
  datatype AddOutcome = Added | AlreadyPresent | EmptyKey

  datatype AddResult = AddResult(st: State, outcome: AddOutcome)

  /** `addPhrase`: appends the normalized phrase unless it is empty or its key
      is already indexed. */
  function AddPhrase(st: State, phrase: string): (r: AddResult)
    ensures var key := NormalizePhrase(phrase);
      && (r.outcome == EmptyKey <==> |key| == 0)
      && (r.outcome == AlreadyPresent <==> |key| > 0 && key in st.phraseSet)
      && (r.outcome != Added ==> r.st == st)
      && (r.outcome == Added ==> r.st == WithPhrases(st, st.phrases + [key]))
    ensures r.st.minusWords == st.minusWords && r.st.minusSet == st.minusSet
    ensures r.st.settings == st.settings && r.st.shiftDown == st.shiftDown
    ensures Valid(st) ==> Valid(r.st)
  {
    var key := NormalizePhrase(phrase);
    if |key| == 0 then AddResult(st, EmptyKey)
    else if key in st.phraseSet then AddResult(st, AlreadyPresent)
    else AddResult(WithPhrases(st, st.phrases + [key]), Added)
  }

  /** On a consistent state, `addPhrase` indexes exactly the phrase's key. */
  lemma LemmaAddPhraseIndex(st: State, phrase: string)
    ensures var key := NormalizePhrase(phrase);
      Valid(st) ==> AddPhrase(st, phrase).st.phraseSet == st.phraseSet + (if |key| > 0 then {key} else {})
  {
    var key := NormalizePhrase(phrase);
    if Valid(st) {
      if |key| > 0 && key !in st.phraseSet {
        LemmaAddPhraseNewKey(st, phrase);
      } else {
        LemmaAddPhraseOldKey(st, phrase);
      }
    }
  }

  lemma LemmaAddPhraseNewKey(st: State, phrase: string)
    requires Valid(st)
    requires |NormalizePhrase(phrase)| > 0 && NormalizePhrase(phrase) !in st.phraseSet
    ensures AddPhrase(st, phrase).st.phraseSet == st.phraseSet + {NormalizePhrase(phrase)}
  {
    LemmaNormalizePhraseIdempotent(phrase);
    LemmaKeySetAppend(st.phrases, NormalizePhrase(phrase), NormalizePhrase, NonEmpty);
  }

  lemma LemmaAddPhraseOldKey(st: State, phrase: string)
    requires |NormalizePhrase(phrase)| == 0 || NormalizePhrase(phrase) in st.phraseSet
    ensures var key := NormalizePhrase(phrase);
      AddPhrase(st, phrase).st.phraseSet == st.phraseSet + (if |key| > 0 then {key} else {})
  {
    var key := NormalizePhrase(phrase);
    assert AddPhrase(st, phrase).st == st;
    LemmaUnionNothingNew(st.phraseSet, if |key| > 0 then {key} else {});
  }

  /** A normalized key that the index lacks belongs to no stored phrase. */
  lemma LemmaAbsentPhraseKey(st: State, key: string)
    requires Valid(st) && |key| > 0 && key !in st.phraseSet
    ensures forall y :: y in st.phrases ==> NormalizePhrase(y) != key
  {
    LemmaAbsentKey(st.phrases, NormalizePhrase, NonEmpty, key);
  }

  /** `addPhrase` keeps stored phrases distinct by key. */
  lemma LemmaAddPhraseKeepsUnique(st: State, phrase: string)
    requires Valid(st) && PhraseKeysUnique(st.phrases)
    ensures PhraseKeysUnique(AddPhrase(st, phrase).st.phrases)
  {
    var r := AddPhrase(st, phrase);
    if r.outcome == Added {
      var key := NormalizePhrase(phrase);
      LemmaNormalizePhraseIdempotent(phrase);
      LemmaAbsentPhraseKey(st, key);
      LemmaDistinctByAppend(st.phrases, key, NormalizePhrase);
    }
  }

  /** `removePhrase`: drops every stored phrase with the given key, when the
      key is nonempty and indexed; the other phrases keep their order. */
  function RemovePhrase(st: State, phrase: string): (r: State)
    ensures var key := NormalizePhrase(phrase);
      |key| == 0 || key !in st.phraseSet ==> r == st
    ensures r.minusWords == st.minusWords && r.minusSet == st.minusSet
    ensures r.settings == st.settings && r.shiftDown == st.shiftDown
    ensures Valid(st) ==> Valid(r)
  {
    var key := NormalizePhrase(phrase);
    if |key| == 0 || key !in st.phraseSet then st
    else WithPhrases(st, DropKey(st.phrases, NormalizePhrase, key))
  }

  /** Removing a collected phrase drops exactly the stored phrases with its
      key, and on a consistent state exactly that key from the index. */
  lemma LemmaRemovePhraseDrops(st: State, phrase: string)
    requires |NormalizePhrase(phrase)| > 0 && NormalizePhrase(phrase) in st.phraseSet
    ensures var key := NormalizePhrase(phrase); var r := RemovePhrase(st, phrase);
      && (forall x :: x in r.phrases <==> x in st.phrases && NormalizePhrase(x) != key)
      && (Valid(st) ==> r.phraseSet == st.phraseSet - {key})
  {
    var key := NormalizePhrase(phrase);
    assert RemovePhrase(st, phrase) == WithPhrases(st, DropKey(st.phrases, NormalizePhrase, key));
    LemmaKeySetDropKey(st.phrases, NormalizePhrase, NonEmpty, key);
  }

  /** Removing a collected phrase is the key filter of the list, so the
      phrases before and after any split point keep their order. */
  lemma LemmaRemovePhraseFilters(st: State, phrase: string, a: seq<string>, b: seq<string>)
    requires |NormalizePhrase(phrase)| > 0 && NormalizePhrase(phrase) in st.phraseSet
    requires st.phrases == a + b
    ensures var key := NormalizePhrase(phrase);
      && RemovePhrase(st, phrase).phrases == DropKey(st.phrases, NormalizePhrase, key)
      && RemovePhrase(st, phrase).phrases == DropKey(a, NormalizePhrase, key) + DropKey(b, NormalizePhrase, key)
  {
    LemmaDropKeyConcat(a, b, NormalizePhrase, NormalizePhrase(phrase));
  }

  /** Deleting a list entry keeps the other entries in their order. */
  lemma LemmaRemoveStoredKeepsOrder(st: State, storedValue: string, a: seq<string>, b: seq<string>)
    requires (if st.settings.mode == Phrases then st.phrases else st.minusWords) == a + b
    ensures var r := RemoveStoredItem(st, storedValue);
      (if st.settings.mode == Phrases then r.phrases else r.minusWords)
        == DropValue(a, storedValue) + DropValue(b, storedValue)
  {
    LemmaDropValueConcat(a, b, storedValue);
  }

  /** Adding a new phrase and removing it again restores the phrase list and
      its index. */
  lemma LemmaAddRemovePhrase(st: State, phrase: string)
    requires Valid(st)
    requires |NormalizePhrase(phrase)| > 0 && NormalizePhrase(phrase) !in st.phraseSet
    ensures RemovePhrase(AddPhrase(st, phrase).st, phrase).phrases == st.phrases
    ensures RemovePhrase(AddPhrase(st, phrase).st, phrase).phraseSet == st.phraseSet
  {
    var key := NormalizePhrase(phrase);
    LemmaNormalizePhraseIdempotent(phrase);
    LemmaAddPhraseNewKey(st, phrase);
    var s1 := AddPhrase(st, phrase).st;
    assert s1.phrases == st.phrases + [key];
    assert RemovePhrase(s1, phrase) == WithPhrases(s1, DropKey(s1.phrases, NormalizePhrase, key));
    LemmaAbsentPhraseKey(st, key);
    LemmaDropKeyAppend(st.phrases, key, NormalizePhrase);
  }

  /** `removePhrase` keeps stored phrases distinct by key. */
  lemma LemmaRemovePhraseKeepsUnique(st: State, phrase: string)
    requires PhraseKeysUnique(st.phrases)
    ensures PhraseKeysUnique(RemovePhrase(st, phrase).phrases)
  {
    LemmaDropKeepsDistinct(st.phrases, NormalizePhrase, NormalizePhrase(phrase), phrase);
  }

  /** The stored form of a new minus word: its base with the configured
      operators (content.js:186). */
  function StoredForm(wordBase: string, settings: Settings): (r: string)
    ensures NormalizeMinusKey(r) == NormalizeMinusKey(wordBase)
  {
    LemmaStoredFormKeepsKey(wordBase, settings.addBangPrefix, settings.addPlusPrefix);
    ApplyPrefixes(NormalizeBase(wordBase), settings.addBangPrefix, settings.addPlusPrefix)
  }

  /** `addMinusWord`: appends the stored form of a word whose key is nonempty
      and not yet indexed; the index then maps that key to the stored form. */
  function AddMinusWord(st: State, wordBase: string): (r: AddResult)
    ensures var key := NormalizeMinusKey(wordBase);
      && (r.outcome == EmptyKey <==> |key| == 0)
      && (r.outcome == AlreadyPresent <==> |key| > 0 && key in st.minusSet)
      && (r.outcome != Added ==> r.st == st)
      && (r.outcome == Added ==> r.st == WithMinusWords(st, st.minusWords + [StoredForm(wordBase, st.settings)]))
    ensures r.st.phrases == st.phrases && r.st.phraseSet == st.phraseSet
    ensures r.st.settings == st.settings && r.st.shiftDown == st.shiftDown
    ensures Valid(st) ==> Valid(r.st)
  {
    var key := NormalizeMinusKey(wordBase);
    if |key| == 0 then AddResult(st, EmptyKey)
    else if key in st.minusSet then AddResult(st, AlreadyPresent)
    else AddResult(WithMinusWords(st, st.minusWords + [StoredForm(wordBase, st.settings)]), Added)
  }

  /** On a consistent state, an appended minus word is indexed under its key
      as the stored form `addMinusWord` appended. */
  lemma LemmaAddMinusWordStores(st: State, wordBase: string)
    ensures var key := NormalizeMinusKey(wordBase); var r := AddMinusWord(st, wordBase);
      Valid(st) && r.outcome == Added ==>
        r.st.minusToStored == st.minusToStored[key := StoredForm(wordBase, st.settings)]
  {
    var r := AddMinusWord(st, wordBase);
    if Valid(st) && r.outcome == Added {
      var stored := StoredForm(wordBase, st.settings);
      LemmaFirstByKeyAppend(st.minusWords, stored, NormalizeMinusKey, NonEmpty);
    }
  }

  /** On a consistent state, `addMinusWord` indexes exactly the new key. */
  lemma LemmaAddMinusWordIndex(st: State, wordBase: string)
    ensures var key := NormalizeMinusKey(wordBase); var r := AddMinusWord(st, wordBase);
      Valid(st) ==> r.st.minusSet == st.minusSet + (if |key| > 0 then {key} else {})
  {
    var key := NormalizeMinusKey(wordBase);
    if Valid(st) {
      if |key| > 0 && key !in st.minusSet {
        LemmaAddMinusWordNewKey(st, wordBase);
      } else {
        LemmaAddMinusWordOldKey(st, wordBase);
      }
    }
  }

  lemma LemmaAddMinusWordOldKey(st: State, wordBase: string)
    requires |NormalizeMinusKey(wordBase)| == 0 || NormalizeMinusKey(wordBase) in st.minusSet
    ensures var key := NormalizeMinusKey(wordBase);
      AddMinusWord(st, wordBase).st.minusSet == st.minusSet + (if |key| > 0 then {key} else {})
  {
    var key := NormalizeMinusKey(wordBase);
    assert AddMinusWord(st, wordBase).st == st;
    LemmaUnionNothingNew(st.minusSet, if |key| > 0 then {key} else {});
  }

  lemma LemmaAddMinusWordNewKey(st: State, wordBase: string)
    requires Valid(st)
    requires |NormalizeMinusKey(wordBase)| > 0 && NormalizeMinusKey(wordBase) !in st.minusSet
    ensures AddMinusWord(st, wordBase).st.minusSet == st.minusSet + {NormalizeMinusKey(wordBase)}
  {
    var stored := StoredForm(wordBase, st.settings);
    LemmaAddMinusWordStores(st, wordBase);
    LemmaUpdateKeys(st.minusToStored, NormalizeMinusKey(wordBase), stored);
  }

  /** A key that the minus index lacks belongs to no stored minus word. */
  lemma LemmaAbsentMinusKey(st: State, key: string)
    requires Valid(st) && |key| > 0 && key !in st.minusSet
    ensures forall y :: y in st.minusWords ==> NormalizeMinusKey(y) != key
  {
    LemmaFirstByKeyDomain(st.minusWords, NormalizeMinusKey, NonEmpty);
    LemmaAbsentKey(st.minusWords, NormalizeMinusKey, NonEmpty, key);
  }

  /** `addMinusWord` keeps stored minus words distinct by key. */
  lemma LemmaAddMinusKeepsUnique(st: State, wordBase: string)
    requires Valid(st) && MinusKeysUnique(st.minusWords)
    ensures MinusKeysUnique(AddMinusWord(st, wordBase).st.minusWords)
  {
    var r := AddMinusWord(st, wordBase);
    if r.outcome == Added {
      var stored := StoredForm(wordBase, st.settings);
      LemmaAbsentMinusKey(st, NormalizeMinusKey(wordBase));
      LemmaDistinctByAppend(st.minusWords, stored, NormalizeMinusKey);
    }
  }

  /** `removeMinusByBase`: drops every entry equal to the word indexed under
      the given key. Only that exact stored string goes; another entry with
      the same key but a different spelling stays. */
  function RemoveMinusByBase(st: State, wordBase: string): (r: State)
    ensures var key := NormalizeMinusKey(wordBase);
      && (|key| == 0 || key !in st.minusSet ==> r == st)
      && (|key| > 0 && key in st.minusSet && key in st.minusToStored ==>
            forall x :: x in r.minusWords <==> x in st.minusWords && x != st.minusToStored[key])
      && r.phrases == st.phrases && r.phraseSet == st.phraseSet
      && r.settings == st.settings && r.shiftDown == st.shiftDown
    ensures Valid(st) ==> Valid(r)
  {
    var key := NormalizeMinusKey(wordBase);
    if |key| == 0 || key !in st.minusSet then st
    else
      // A missing map entry reads as `undefined`, which no string equals.
      var ws := if key in st.minusToStored then DropValue(st.minusWords, st.minusToStored[key])
                else st.minusWords;
      WithMinusWords(st, ws)
  }

  /** With distinct keys, removing by a word removes exactly its key. */
  lemma LemmaRemoveMinusRemovesKey(st: State, wordBase: string)
    requires Valid(st) && MinusKeysUnique(st.minusWords)
    ensures RemoveMinusByBase(st, wordBase).minusSet == st.minusSet - {NormalizeMinusKey(wordBase)}
  {
    var key := NormalizeMinusKey(wordBase);
    LemmaFirstByKeyDomain(st.minusWords, NormalizeMinusKey, NonEmpty);
    if |key| > 0 && key in st.minusSet {
      var ws := DropValue(st.minusWords, st.minusToStored[key]);
      LemmaDropIndexedValue(st.minusWords, NormalizeMinusKey, NonEmpty, key);
      LemmaFirstByKeyDomain(ws, NormalizeMinusKey, NonEmpty);
    }
  }

  /** Without distinct keys the removal can leave the key indexed: of two
      spellings with one key, only the indexed (first) one is dropped. */
  lemma LemmaRemoveMinusDuplicateKeyStays(st: State, a: string, b: string)
    requires Valid(st) && st.minusWords == [a, b]
    requires a != b && NormalizeMinusKey(a) == NormalizeMinusKey(b) && |NormalizeMinusKey(a)| > 0
    ensures NormalizeMinusKey(a) in st.minusSet
    ensures RemoveMinusByBase(st, a).minusWords == [b]
    ensures NormalizeMinusKey(a) in RemoveMinusByBase(st, a).minusSet
  {
    LemmaDropFirstOfTwo(a, b, NormalizeMinusKey, NonEmpty);
  }

  /** Such spellings exist and boot loads them as they are: `w` and `W`
      differ and share the key `w`. */
  lemma LemmaDuplicateSpellingsExist()
    ensures "w" != "W" && NormalizeMinusKey("w") == NormalizeMinusKey("W") == "w"
    ensures Boot(None, Some(["w", "W"]), None, None).minusWords == ["w", "W"]
  {
    LemmaPlainWordKey("w", "w");
    LemmaPlainWordKey("W", "w");
  }

  /** The key of a one-letter word is that letter lower-cased. */
  lemma LemmaPlainWordKey(w: string, key: string)
    requires |w| == 1 && !IsMarker(w[0]) && key == [Lower(w[0])]
    ensures NormalizeMinusKey(w) == key
  {
    assert NormalizeBase(w) == w;
  }

  /** Adding a new minus word and removing it by the same word restores the
      minus list and its index. */
  lemma LemmaAddRemoveMinus(st: State, wordBase: string)
    requires Valid(st)
    requires |NormalizeMinusKey(wordBase)| > 0 && NormalizeMinusKey(wordBase) !in st.minusSet
    ensures RemoveMinusByBase(AddMinusWord(st, wordBase).st, wordBase).minusWords == st.minusWords
    ensures RemoveMinusByBase(AddMinusWord(st, wordBase).st, wordBase).minusSet == st.minusSet
  {
    var key := NormalizeMinusKey(wordBase);
    var stored := StoredForm(wordBase, st.settings);
    var s1 := AddMinusWord(st, wordBase).st;
    LemmaAddMinusWordNewKey(st, wordBase);
    LemmaAddMinusWordStores(st, wordBase);
    assert s1.minusWords == st.minusWords + [stored];
    LemmaRemoveMinusIndexed(s1, wordBase);
    LemmaAbsentMinusKey(st, key);
    LemmaDropValueAppend(st.minusWords, stored);
  }

  lemma LemmaRemoveMinusIndexed(st: State, wordBase: string)
    requires |NormalizeMinusKey(wordBase)| > 0
    requires NormalizeMinusKey(wordBase) in st.minusSet && NormalizeMinusKey(wordBase) in st.minusToStored
    ensures RemoveMinusByBase(st, wordBase)
         == WithMinusWords(st, DropValue(st.minusWords, st.minusToStored[NormalizeMinusKey(wordBase)]))
  {
  }

  /** `removeMinusByBase` keeps stored minus words distinct by key. */
  lemma LemmaRemoveMinusKeepsUnique(st: State, wordBase: string)
    requires MinusKeysUnique(st.minusWords)
    ensures MinusKeysUnique(RemoveMinusByBase(st, wordBase).minusWords)
  {
    var key := NormalizeMinusKey(wordBase);
    if key in st.minusToStored {
      LemmaDropKeepsDistinct(st.minusWords, NormalizeMinusKey, key, st.minusToStored[key]);
    }
  }

  /** `removeStoredItem`: the delete button of a widget row drops every entry
      equal to the row's stored text from the list of the current mode. It
      never touches the "don't ask" flag. */
  function RemoveStoredItem(st: State, storedValue: string): (r: State)
    ensures st.settings.mode == Phrases ==>
      && (forall x :: x in r.phrases <==> x in st.phrases && x != storedValue)
      && r.phrases == DropValue(st.phrases, storedValue)
      && r.minusWords == st.minusWords
    ensures st.settings.mode == Minus ==>
      && (forall x :: x in r.minusWords <==> x in st.minusWords && x != storedValue)
      && r.minusWords == DropValue(st.minusWords, storedValue)
      && r.phrases == st.phrases
    ensures r.settings == st.settings
    ensures Valid(st) ==> Valid(r)
  {
    if st.settings.mode == Phrases then WithPhrases(st, DropValue(st.phrases, storedValue))
    else WithMinusWords(st, DropValue(st.minusWords, storedValue))
  }

  /** `removeStoredItem` keeps both lists distinct by key. */
  lemma LemmaRemoveStoredKeepsUnique(st: State, storedValue: string)
    requires PhraseKeysUnique(st.phrases) && MinusKeysUnique(st.minusWords)
    ensures PhraseKeysUnique(RemoveStoredItem(st, storedValue).phrases)
    ensures MinusKeysUnique(RemoveStoredItem(st, storedValue).minusWords)
  {
    LemmaDropKeepsDistinct(st.phrases, NormalizePhrase, storedValue, storedValue);
    LemmaDropKeepsDistinct(st.minusWords, NormalizeMinusKey, storedValue, storedValue);
  }

  /** `clearActiveList`: empties the list of the current mode. Clearing the
      phrases, and only that, re-arms the conflict warning. */
  function ClearActiveList(st: State): (r: State)
    ensures st.settings.mode == Phrases ==>
      && r.phrases == [] && r.phraseSet == {} && r.minusWords == st.minusWords
      && r.settings == st.settings.(dontAskUntilPhrasesCleared := false)
    ensures st.settings.mode == Minus ==>
      && r.minusWords == [] && r.minusSet == {} && r.phrases == st.phrases
      && r.settings == st.settings
    ensures Valid(st) ==> Valid(r)
  {
    if st.settings.mode == Phrases then
      var s1 := WithPhrases(st, []);
      s1.(settings := s1.settings.(dontAskUntilPhrasesCleared := false))
    else
      WithMinusWords(st, [])
  }

  // ---------------------------------------------------------------------
  // The "add" panel (content.js:440-453)
  // ---------------------------------------------------------------------

  /** `for (const it of items) addPhrase(it)`: the index gains exactly the
      nonempty keys of the items, and the old phrases stay in front. */
  function AddPhrases(st: State, items: seq<string>): (r: State)
    ensures Valid(st) ==> Valid(r) && r.phraseSet == st.phraseSet + KeySet(items, NormalizePhrase, NonEmpty)
    ensures st.phrases <= r.phrases
    ensures r.minusWords == st.minusWords && r.settings == st.settings
    decreases |items|
  {
    if |items| == 0 then st
    else
      var s1 := AddPhrase(st, items[0]).st;
      var r := AddPhrases(s1, items[1..]);
      var key := NormalizePhrase(items[0]);
      LemmaKeySetCons(items, NormalizePhrase, NonEmpty);
      LemmaAddPhraseIndex(st, items[0]);
      LemmaUnionStep(st.phraseSet, s1.phraseSet, r.phraseSet, if |key| > 0 then {key} else {},
                     KeySet(items[1..], NormalizePhrase, NonEmpty));
      r
  }

  /** `for (const it of items) addMinusWord(it)`: the index gains exactly the
      nonempty keys of the items, and the old words stay in front. */
  function AddMinusWords(st: State, items: seq<string>): (r: State)
    ensures Valid(st) ==> Valid(r) && r.minusSet == st.minusSet + KeySet(items, NormalizeMinusKey, NonEmpty)
    ensures st.minusWords <= r.minusWords
    ensures r.phrases == st.phrases && r.settings == st.settings
    decreases |items|
  {
    if |items| == 0 then st
    else
      var s1 := AddMinusWord(st, items[0]).st;
      var r := AddMinusWords(s1, items[1..]);
      var key := NormalizeMinusKey(items[0]);
      LemmaKeySetCons(items, NormalizeMinusKey, NonEmpty);
      LemmaAddMinusWordIndex(st, items[0]);
      LemmaUnionStep(st.minusSet, s1.minusSet, r.minusSet, if |key| > 0 then {key} else {},
                     KeySet(items[1..], NormalizeMinusKey, NonEmpty));
      r
  }

  /** The apply button of the "add" panel: an all-blank input changes nothing
      (the "empty" toast); otherwise every item of the split input is added to
      the list of the current mode, in order. */
  function AddBatch(st: State, input: string): (r: State)
    ensures SplitBatch(input).EmptyInput? ==> r == st
    ensures SplitBatch(input).Items? && st.settings.mode == Phrases ==>
      r.minusWords == st.minusWords
      && (Valid(st) ==> r.phraseSet == st.phraseSet + KeySet(SplitBatch(input).items, NormalizePhrase, NonEmpty))
    ensures SplitBatch(input).Items? && st.settings.mode == Minus ==>
      r.phrases == st.phrases
      && (Valid(st) ==> r.minusSet == st.minusSet + KeySet(SplitBatch(input).items, NormalizeMinusKey, NonEmpty))
    ensures r.settings == st.settings
    ensures Valid(st) ==> Valid(r)
  {
    match SplitBatch(input)
    case EmptyInput => st
    case Items(items) =>
      if st.settings.mode == Phrases then AddPhrases(st, items) else AddMinusWords(st, items)
  }

  // ---------------------------------------------------------------------
  // Boot (content.js:1001-1027)
  // ---------------------------------------------------------------------

  datatype Option<T> = None | Some(value: T)

  /** A settings object read from storage: each field may be missing. */
  datatype SavedSettings = SavedSettings(
    stripPlusInPhrases: Option<bool>,
    addBangPrefix: Option<bool>,
    addPlusPrefix: Option<bool>,
    mode: Option<string>,
    dontAskUntilPhrasesCleared: Option<bool>,
    shiftHotkeyEnabled: Option<bool>)

  /** A stored mode string after the boot-time sanitation: "minus" selects
      minus mode, anything else (including a missing value) phrases mode. */
  function SanitizeMode(stored: Option<string>): (m: Mode)
    ensures m == Minus <==> stored == Some("minus")
  {
    if stored == Some("minus") then Minus else Phrases
  }

  function OrDefault<T>(o: Option<T>, d: T): T {
    if o.Some? then o.value else d
  }

  /** `{ ...defaultSettings, ...savedSettings }` followed by the mode check:
      every saved field overrides its default, the mode only when it is one
      of the two known modes. */
  function MergeSettings(saved: Option<SavedSettings>): (r: Settings)
    ensures saved.None? ==> r == DefaultSettings
    ensures saved.Some? ==>
      && (r.mode == Minus <==> saved.value.mode == Some("minus"))
      && (saved.value.stripPlusInPhrases.Some? ==> r.stripPlusInPhrases == saved.value.stripPlusInPhrases.value)
      && (saved.value.stripPlusInPhrases.None? ==> r.stripPlusInPhrases == DefaultSettings.stripPlusInPhrases)
      && (saved.value.shiftHotkeyEnabled.Some? ==> r.shiftHotkeyEnabled == saved.value.shiftHotkeyEnabled.value)
      && (saved.value.shiftHotkeyEnabled.None? ==> r.shiftHotkeyEnabled == DefaultSettings.shiftHotkeyEnabled)
      && (saved.value.addBangPrefix.Some? ==> r.addBangPrefix == saved.value.addBangPrefix.value)
      && (saved.value.addBangPrefix.None? ==> r.addBangPrefix == DefaultSettings.addBangPrefix)
      && (saved.value.addPlusPrefix.Some? ==> r.addPlusPrefix == saved.value.addPlusPrefix.value)
      && (saved.value.addPlusPrefix.None? ==> r.addPlusPrefix == DefaultSettings.addPlusPrefix)
      && (saved.value.dontAskUntilPhrasesCleared.Some? ==> r.dontAskUntilPhrasesCleared == saved.value.dontAskUntilPhrasesCleared.value)
      && (saved.value.dontAskUntilPhrasesCleared.None? ==> !r.dontAskUntilPhrasesCleared)
  {
    if saved.None? then DefaultSettings
    else
      var s := saved.value;
      Settings(
        OrDefault(s.stripPlusInPhrases, DefaultSettings.stripPlusInPhrases),
        OrDefault(s.addBangPrefix, DefaultSettings.addBangPrefix),
        OrDefault(s.addPlusPrefix, DefaultSettings.addPlusPrefix),
        SanitizeMode(s.mode),
        OrDefault(s.dontAskUntilPhrasesCleared, DefaultSettings.dontAskUntilPhrasesCleared),
        OrDefault(s.shiftHotkeyEnabled, DefaultSettings.shiftHotkeyEnabled))
  }

  /** A state loaded from lists as they are: both indexes rebuilt, Shift up. */
  function Loaded(ps: seq<string>, ws: seq<string>, settings: Settings): (r: State)
    ensures Valid(r) && r.phrases == ps && r.minusWords == ws && r.settings == settings && !r.shiftDown
  {
    var m := FirstByKey(ws, NormalizeMinusKey, NonEmpty);
    State(ps, ws, KeySet(ps, NormalizePhrase, NonEmpty), m.Keys, m, settings, false)
  }

  /** The legacy migration: an empty minus list takes the legacy words. */
  function MigratedMinus(storedMinus: Option<seq<string>>, legacyWords: Option<seq<string>>): (r: seq<string>)
    ensures storedMinus.Some? && |storedMinus.value| > 0 ==> r == storedMinus.value
    ensures (storedMinus.None? || |storedMinus.value| == 0) ==> r == OrDefault(legacyWords, [])
  {
    var ws := OrDefault(storedMinus, []);
    var legacy := OrDefault(legacyWords, []);
    if |ws| == 0 && |legacy| > 0 then legacy else ws
  }

  /** The boot step after the storage read: the lists are taken as stored
      (a non-array reads as absent), a legacy word list becomes the minus list
      when that is empty, the indexes are rebuilt from the lists as loaded
      (their keys need not be distinct), the settings are merged over the
      defaults and the Shift flag is off. */
  function Boot(storedPhrases: Option<seq<string>>, storedMinus: Option<seq<string>>,
                legacyWords: Option<seq<string>>, saved: Option<SavedSettings>): (r: State)
    ensures Valid(r) && !r.shiftDown && r.settings == MergeSettings(saved)
    ensures r.phrases == OrDefault(storedPhrases, [])
    ensures storedMinus.Some? && |storedMinus.value| > 0 ==> r.minusWords == storedMinus.value
    ensures (storedMinus.None? || |storedMinus.value| == 0) ==> r.minusWords == OrDefault(legacyWords, [])
  {
    Loaded(OrDefault(storedPhrases, []), MigratedMinus(storedMinus, legacyWords), MergeSettings(saved))
  }
}

=== FILE: views.dfy ===
/**
  Mode gating and the per-node view state of the results page
  (content.js:148-152, 653-823, 1048-1068): the effective mode under the
  Shift hotkey, the token (single word) button, the phrase button with its
  conflict warning, and the settings and keyboard events that move the
  Shift flag. A view is the part of a node's DOM state the script writes;
  updating it is a function of the previous view and the current state.
 */
module Views {
  import opened Seqs
  import opened Normalize
  import opened Index
  import opened Store
  import opened Conflicts

  // ---------------------------------------------------------------------
  // Effective mode
  // ---------------------------------------------------------------------

  /** `effectiveMode`: holding Shift turns phrases mode into minus mode while
      the hotkey is enabled. */
  function EffectiveMode(st: State): (m: Mode)
    ensures m == Minus <==>
      st.settings.mode == Minus
      || (st.settings.mode == Phrases && st.settings.shiftHotkeyEnabled && st.shiftDown)
  {
    if st.settings.shiftHotkeyEnabled && st.settings.mode == Phrases && st.shiftDown then Minus
    else st.settings.mode
  }

  // ---------------------------------------------------------------------
  // Tokens
  // ---------------------------------------------------------------------

  /** The minus key of a page token as the click handler computes it:
      `normalizeMinusKey(normalizeBase(tokenKeyFromRaw(raw)))`. */
  function ClickKey(raw: string, strip: bool): (r: string)
    ensures r == NormalizeMinusKey(raw)
  {
    var base := NormalizeBase(TokenKey(raw, strip));
    LemmaMinusKeyOfBase(TokenKey(raw, strip));
    NormalizeMinusKey(base)
  }

  /** The token click: ignored unless the effective mode is minus; otherwise
      removes the token's minus word when its key is indexed, else adds the
      token's base as a minus word. */
  function TokenClick(st: State, raw: string): (r: State)
    ensures EffectiveMode(st) != Minus ==> r == st
    ensures Valid(st) ==> Valid(r)
  {
    if EffectiveMode(st) != Minus then st
    else
      var base := NormalizeBase(TokenKey(raw, st.settings.stripPlusInPhrases));
      if ClickKey(raw, st.settings.stripPlusInPhrases) in st.minusSet then RemoveMinusByBase(st, base)
      else AddMinusWord(st, base).st
  }

  /** In minus mode, a click on an indexed token removes by the token's base. */
  lemma LemmaTokenClickRemoves(st: State, raw: string)
    requires EffectiveMode(st) == Minus && NormalizeMinusKey(raw) in st.minusSet
    ensures TokenClick(st, raw) == RemoveMinusByBase(st, NormalizeBase(TokenKey(raw, st.settings.stripPlusInPhrases)))
  {
    assert ClickKey(raw, st.settings.stripPlusInPhrases) in st.minusSet;
  }

  /** In minus mode, a click on any other token adds the token's base. */
  lemma LemmaTokenClickAdds(st: State, raw: string)
    requires EffectiveMode(st) == Minus && NormalizeMinusKey(raw) !in st.minusSet
    ensures TokenClick(st, raw) == AddMinusWord(st, NormalizeBase(TokenKey(raw, st.settings.stripPlusInPhrases))).st
  {
    assert ClickKey(raw, st.settings.stripPlusInPhrases) !in st.minusSet;
  }

  /** A token click touches only the minus list and its index. */
  lemma LemmaTokenClickFrame(st: State, raw: string)
    ensures var r := TokenClick(st, raw);
      r.phrases == st.phrases && r.phraseSet == st.phraseSet && r.settings == st.settings && r.shiftDown == st.shiftDown
  {
    if EffectiveMode(st) == Minus {
      if NormalizeMinusKey(raw) in st.minusSet {
        LemmaTokenClickRemoves(st, raw);
      } else {
        LemmaTokenClickAdds(st, raw);
      }
    }
  }

  /** With distinct minus keys, a token click in minus mode toggles exactly
      the token's key in the minus index. */
  lemma LemmaTokenClickToggles(st: State, raw: string)
    requires Valid(st) && MinusKeysUnique(st.minusWords) && EffectiveMode(st) == Minus
    ensures var key := NormalizeMinusKey(raw);
      TokenClick(st, raw).minusSet ==
        if key in st.minusSet then st.minusSet - {key}
        else st.minusSet + (if |key| > 0 then {key} else {})
  {
    if NormalizeMinusKey(raw) in st.minusSet {
      LemmaTokenClickRemovesKey(st, raw);
    } else {
      LemmaTokenClickAddsKey(st, raw);
    }
  }

  lemma LemmaTokenClickRemovesKey(st: State, raw: string)
    requires Valid(st) && MinusKeysUnique(st.minusWords) && EffectiveMode(st) == Minus
    requires NormalizeMinusKey(raw) in st.minusSet
    ensures TokenClick(st, raw).minusSet == st.minusSet - {NormalizeMinusKey(raw)}
  {
    var base := NormalizeBase(TokenKey(raw, st.settings.stripPlusInPhrases));
    LemmaMinusKeyOfBase(TokenKey(raw, st.settings.stripPlusInPhrases));
    LemmaTokenClickRemoves(st, raw);
    LemmaRemoveMinusRemovesKey(st, base);
  }

  lemma LemmaTokenClickAddsKey(st: State, raw: string)
    requires Valid(st) && EffectiveMode(st) == Minus
    requires NormalizeMinusKey(raw) !in st.minusSet
    ensures var key := NormalizeMinusKey(raw);
      TokenClick(st, raw).minusSet == st.minusSet + (if |key| > 0 then {key} else {})
  {
    var base := NormalizeBase(TokenKey(raw, st.settings.stripPlusInPhrases));
    LemmaMinusKeyOfBase(TokenKey(raw, st.settings.stripPlusInPhrases));
    LemmaTokenClickAdds(st, raw);
    LemmaAddMinusWordIndex(st, base);
  }

  /** Clicking a token whose key is new twice restores the minus list. */
  lemma LemmaTokenClickTwice(st: State, raw: string)
    requires Valid(st) && EffectiveMode(st) == Minus
    requires |NormalizeMinusKey(raw)| > 0 && NormalizeMinusKey(raw) !in st.minusSet
    ensures TokenClick(TokenClick(st, raw), raw).minusWords == st.minusWords
  {
    var base := NormalizeBase(TokenKey(raw, st.settings.stripPlusInPhrases));
    LemmaMinusKeyOfBase(TokenKey(raw, st.settings.stripPlusInPhrases));
    LemmaAddMinusWordIndex(st, base);
    LemmaTokenClickFrame(st, raw);
    LemmaAddRemoveMinus(st, base);
  }

  /** What `updateTokenUI` writes on a token node: the shown text, the
      `data-wc-word-key` attribute, whether the button is shown, the
      "selected" class and the button caption. */
  datatype TokenView = TokenView(text: string, dataKey: string, buttonShown: bool, selected: bool, caption: string)

  /** A token node as `makeTokenNode` creates it. */
  const FreshTokenView := TokenView("", "", true, false, "")

  const AddLabel := "+"
  const RemoveLabel := "\U{2212}"

  /** `updateTokenUI`: the button is shown only in effective minus mode; then
      the token is selected exactly when its key is indexed. Outside minus
      mode the caption is left as it was. */
  function UpdateTokenView(prev: TokenView, st: State, raw: string): (v: TokenView)
    ensures v.text == v.dataKey == TokenKey(raw, st.settings.stripPlusInPhrases)
    ensures v.buttonShown <==> EffectiveMode(st) == Minus
    ensures v.selected <==> EffectiveMode(st) == Minus && NormalizeMinusKey(raw) in st.minusSet
    ensures EffectiveMode(st) != Minus ==> v.caption == prev.caption
    ensures EffectiveMode(st) == Minus ==> (v.caption == RemoveLabel <==> v.selected)
  {
    var key := TokenKey(raw, st.settings.stripPlusInPhrases);
    if EffectiveMode(st) != Minus then TokenView(key, key, false, false, prev.caption)
    else if ClickKey(raw, st.settings.stripPlusInPhrases) in st.minusSet then TokenView(key, key, true, true, RemoveLabel)
    else TokenView(key, key, true, false, AddLabel)
  }

  /** Refreshing a token view twice gives what refreshing it once gives. */
  lemma LemmaUpdateTokenViewIdempotent(prev: TokenView, st: State, raw: string)
    ensures UpdateTokenView(UpdateTokenView(prev, st, raw), st, raw) == UpdateTokenView(prev, st, raw)
  {
  }

  /** After a click on a token with a nonempty key, its refreshed view flips
      between selected and not selected. */
  lemma LemmaTokenClickFlipsSelection(prev: TokenView, st: State, raw: string)
    requires Valid(st) && MinusKeysUnique(st.minusWords) && EffectiveMode(st) == Minus
    requires |NormalizeMinusKey(raw)| > 0
    ensures UpdateTokenView(prev, TokenClick(st, raw), raw).selected != UpdateTokenView(prev, st, raw).selected
  {
    LemmaTokenClickToggles(st, raw);
  }

  // ---------------------------------------------------------------------
  // Phrases
  // ---------------------------------------------------------------------

  /** The answer of the warning modal: whether the user confirmed, and
      whether "don't ask again" was ticked. */
  datatype Decision = Decision(confirmed: bool, dontAsk: bool)

  datatype PhraseClickOutcome = NotPhrasesMode | EmptyPhrase | RemovedPhrase | Cancelled | AddedPhrase(asked: bool)

  datatype PhraseClickResult = PhraseClickResult(st: State, outcome: PhraseClickOutcome)

  /** Whether a click on this phrase would open the warning modal: it has
      hits and "don't ask" is not remembered. */
  predicate WouldAsk(st: State, phrase: string) {
    |PhraseMinusHits(st, phrase)| > 0 && !st.settings.dontAskUntilPhrasesCleared
  }

  /** The modal is shown exactly when some word of the phrase carries an
      indexed minus key and the warning is armed. */
  lemma LemmaWouldAskIff(st: State, phrase: string)
    ensures WouldAsk(st, phrase) <==>
      !st.settings.dontAskUntilPhrasesCleared
      && exists h :: h in st.minusSet && |h| > 0 && HasKey(SplitWords(phrase), NormalizeMinusKey, h)
  {
    var hits := PhraseMinusHits(st, phrase);
    assert |hits| > 0 ==> hits[0] in hits;
  }

  /** Sets the "don't ask" flag; the lists and indexes are untouched. */
  function RememberDontAsk(st: State): (r: State)
    ensures r.settings == st.settings.(dontAskUntilPhrasesCleared := true)
    ensures r.phrases == st.phrases && r.minusWords == st.minusWords && r.shiftDown == st.shiftDown
    ensures r.phraseSet == st.phraseSet && r.minusSet == st.minusSet
    ensures Valid(st) ==> Valid(r)
  {
    st.(settings := st.settings.(dontAskUntilPhrasesCleared := true))
  }

  /** What the modal leaves behind: the state with "don't ask" possibly
      remembered, and whether the handler goes on to add. */
  datatype ModalStep = ModalStep(st: State, proceed: bool)

  /** The modal step of the click handler: when `ask`, the "don't ask" box
      is remembered whatever the answer and only a confirmation proceeds;
      without the modal the handler always proceeds. */
  function AskFirst(st: State, ask: bool, d: Decision): (r: ModalStep)
    ensures r.proceed <==> !ask || d.confirmed
    ensures r.st.settings.dontAskUntilPhrasesCleared <==> st.settings.dontAskUntilPhrasesCleared || (ask && d.dontAsk)
    ensures r.st.settings.(dontAskUntilPhrasesCleared := st.settings.dontAskUntilPhrasesCleared) == st.settings
    ensures r.st.phrases == st.phrases && r.st.minusWords == st.minusWords && r.st.shiftDown == st.shiftDown
    ensures r.st.phraseSet == st.phraseSet && r.st.minusSet == st.minusSet
    ensures Valid(st) ==> Valid(r.st)
  {
    var st1 := if ask && d.dontAsk then RememberDontAsk(st) else st;
    ModalStep(st1, !ask || d.confirmed)
  }

  /** The phrase button's click handler, with the modal's answer `d` as an
      input: only in phrases mode and for a nonempty key; removes a phrase
      already collected, otherwise confirms and adds. The handler passes the
      normalized key to `removePhrase`/`addPhrase`, which normalize it again;
      passing the phrase itself is the same by
      `LemmaNormalizePhraseIdempotent`. */
  function PhraseClick(st: State, phrase: string, d: Decision): (r: PhraseClickResult)
    ensures var key := NormalizePhrase(phrase);
      && (r.outcome == NotPhrasesMode <==> st.settings.mode != Phrases)
      && (r.outcome == EmptyPhrase <==> st.settings.mode == Phrases && |key| == 0)
      && (r.outcome == RemovedPhrase <==> st.settings.mode == Phrases && |key| > 0 && key in st.phraseSet)
      && (r.outcome == NotPhrasesMode || r.outcome == EmptyPhrase ==> r.st == st)
    ensures Valid(st) ==> Valid(r.st)
  {
    var key := NormalizePhrase(phrase);
    if st.settings.mode != Phrases then PhraseClickResult(st, NotPhrasesMode)
    else if |key| == 0 then PhraseClickResult(st, EmptyPhrase)
    else if key in st.phraseSet then PhraseClickResult(RemovePhrase(st, phrase), RemovedPhrase)
    else
      var ask := WouldAsk(st, phrase);
      var m := AskFirst(st, ask, d);
      if !m.proceed then PhraseClickResult(m.st, Cancelled)
      else PhraseClickResult(AddPhrase(m.st, phrase).st, AddedPhrase(ask))
  }

  /** In phrases mode, a click on a collected phrase removes it. */
  lemma LemmaPhraseClickRemoves(st: State, phrase: string, d: Decision)
    requires st.settings.mode == Phrases
    requires |NormalizePhrase(phrase)| > 0 && NormalizePhrase(phrase) in st.phraseSet
    ensures PhraseClick(st, phrase, d) == PhraseClickResult(RemovePhrase(st, phrase), RemovedPhrase)
  {
  }

  /** In phrases mode, a click on a new phrase goes through the modal step
      and adds unless the modal was cancelled. */
  lemma LemmaPhraseClickModal(st: State, phrase: string, d: Decision)
    requires st.settings.mode == Phrases
    requires |NormalizePhrase(phrase)| > 0 && NormalizePhrase(phrase) !in st.phraseSet
    ensures var ask := WouldAsk(st, phrase); var m := AskFirst(st, ask, d);
      PhraseClick(st, phrase, d) ==
        if m.proceed then PhraseClickResult(AddPhrase(m.st, phrase).st, AddedPhrase(ask))
        else PhraseClickResult(m.st, Cancelled)
  {
  }

  /** A click is cancelled only when the modal was shown and not confirmed,
      and an add reports whether the modal was shown. */
  lemma LemmaPhraseClickAsks(st: State, phrase: string, d: Decision)
    ensures var r := PhraseClick(st, phrase, d); var key := NormalizePhrase(phrase);
      && (r.outcome.AddedPhrase? || r.outcome == Cancelled ==> st.settings.mode == Phrases && |key| > 0 && key !in st.phraseSet)
      && (r.outcome == Cancelled ==> WouldAsk(st, phrase) && !d.confirmed)
      && (r.outcome.AddedPhrase? ==> r.outcome.asked == WouldAsk(st, phrase) && (r.outcome.asked ==> d.confirmed))
  {
    var key := NormalizePhrase(phrase);
    if st.settings.mode == Phrases && |key| > 0 && key !in st.phraseSet {
      LemmaPhraseClickModal(st, phrase, d);
    }
  }

  /** `b` differs from `a` at most in the phrase list, its index and the
      "don't ask" flag. */
  predicate PhraseSideOnly(a: State, b: State) {
    && b.shiftDown == a.shiftDown
    && b.minusWords == a.minusWords && b.minusSet == a.minusSet
    && b.settings.(dontAskUntilPhrasesCleared := a.settings.dontAskUntilPhrasesCleared) == a.settings
  }

  /** Only the phrase list, its index and the "don't ask" flag can change. */
  lemma LemmaPhraseClickFrame(st: State, phrase: string, d: Decision)
    ensures PhraseSideOnly(st, PhraseClick(st, phrase, d).st)
  {
    var key := NormalizePhrase(phrase);
    if st.settings.mode == Phrases && |key| > 0 {
      if key in st.phraseSet {
        LemmaRemovedSideOnly(st, phrase, d);
      } else {
        LemmaModalSideOnly(st, phrase, d);
      }
    } else {
      assert PhraseClick(st, phrase, d).st == st;
    }
  }

  lemma LemmaRemovedSideOnly(st: State, phrase: string, d: Decision)
    requires st.settings.mode == Phrases
    requires |NormalizePhrase(phrase)| > 0 && NormalizePhrase(phrase) in st.phraseSet
    ensures PhraseSideOnly(st, PhraseClick(st, phrase, d).st)
  {
    LemmaPhraseClickRemoves(st, phrase, d);
    assert PhraseSideOnly(st, RemovePhrase(st, phrase));
  }

  lemma LemmaModalSideOnly(st: State, phrase: string, d: Decision)
    requires st.settings.mode == Phrases
    requires |NormalizePhrase(phrase)| > 0 && NormalizePhrase(phrase) !in st.phraseSet
    ensures PhraseSideOnly(st, PhraseClick(st, phrase, d).st)
  {
    LemmaPhraseClickModal(st, phrase, d);
    LemmaAfterModalFrame(st, phrase, WouldAsk(st, phrase), d);
  }

  /** The "don't ask" flag becomes set exactly when the modal was shown with
      the box ticked, whether or not the user confirmed, and a click never
      clears it. */
  lemma LemmaPhraseClickDontAsk(st: State, phrase: string, d: Decision)
    ensures var r := PhraseClick(st, phrase, d); var key := NormalizePhrase(phrase);
      r.st.settings.dontAskUntilPhrasesCleared <==>
        st.settings.dontAskUntilPhrasesCleared
        || (st.settings.mode == Phrases && |key| > 0 && key !in st.phraseSet && WouldAsk(st, phrase) && d.dontAsk)
  {
    var key := NormalizePhrase(phrase);
    if st.settings.mode == Phrases && |key| > 0 {
      if key in st.phraseSet {
        LemmaPhraseClickRemoves(st, phrase, d);
      } else {
        LemmaPhraseClickModal(st, phrase, d);
        LemmaAfterModalFrame(st, phrase, WouldAsk(st, phrase), d);
      }
    }
  }

  /** The modal step followed by the add, when it proceeds, changes only the
      phrase list, its index and the "don't ask" flag. */
  lemma LemmaAfterModalFrame(st: State, phrase: string, ask: bool, d: Decision)
    ensures var m := AskFirst(st, ask, d);
      var s2 := if m.proceed then AddPhrase(m.st, phrase).st else m.st;
      && PhraseSideOnly(st, s2)
      && (s2.settings.dontAskUntilPhrasesCleared <==> st.settings.dontAskUntilPhrasesCleared || (ask && d.dontAsk))
  {
  }

  /** After a click the phrase is collected exactly when the click added it
      or it was collected and the click did not remove it. */
  lemma LemmaPhraseClickAdds(st: State, phrase: string, d: Decision)
    requires Valid(st)
    ensures var r := PhraseClick(st, phrase, d); var key := NormalizePhrase(phrase);
      && (r.outcome.AddedPhrase? ==> key in r.st.phraseSet)
      && (r.outcome == RemovedPhrase ==> r.st.phraseSet == st.phraseSet - {key})
      && (r.outcome == Cancelled ==> r.st.phraseSet == st.phraseSet)
  {
    var key := NormalizePhrase(phrase);
    if st.settings.mode == Phrases && |key| > 0 {
      if key in st.phraseSet {
        LemmaPhraseClickRemoves(st, phrase, d);
        LemmaRemovePhraseDrops(st, phrase);
      } else {
        LemmaPhraseClickModal(st, phrase, d);
        LemmaAddPhraseIndex(AskFirst(st, WouldAsk(st, phrase), d).st, phrase);
      }
    }
  }

  /** Once "don't ask" is remembered, no click asks again until the phrase
      list is cleared; clearing it in phrases mode re-arms the warning. */
  lemma LemmaDontAskLifecycle(st: State, phrase: string, d: Decision)
    requires st.settings.dontAskUntilPhrasesCleared
    ensures PhraseClick(st, phrase, d).outcome != Cancelled
    ensures PhraseClick(st, phrase, d).outcome.AddedPhrase? ==> !PhraseClick(st, phrase, d).outcome.asked
    ensures PhraseClick(st, phrase, d).st.settings.dontAskUntilPhrasesCleared
    ensures st.settings.mode == Phrases ==> !ClearActiveList(st).settings.dontAskUntilPhrasesCleared
    ensures st.settings.mode == Minus ==> ClearActiveList(st).settings.dontAskUntilPhrasesCleared
  {
    LemmaPhraseClickDontAsk(st, phrase, d);
  }

  /** What `updatePhraseActionsUI` writes on a phrase node: whether the
      warning glyph is shown, the button caption, whether it is disabled and
      the "added" class. */
  datatype PhraseView = PhraseView(warnShown: bool, caption: string, disabled: bool, added: bool)

  /** The phrase node as `makePhraseActionsNode` creates it. */
  const FreshPhraseView := PhraseView(true, "", false, false)

  /** `updatePhraseActionsUI`: the warning is shown exactly when the phrase
      has hits; outside phrases mode the button is disabled and the "added"
      class is left as it was; in phrases mode it shows whether the phrase is
      collected. */
  function UpdatePhraseView(prev: PhraseView, st: State, phrase: string): (v: PhraseView)
    ensures v.warnShown <==> exists h :: h in st.minusSet && |h| > 0 && HasKey(SplitWords(phrase), NormalizeMinusKey, h)
    ensures v.disabled <==> st.settings.mode != Phrases
    ensures v.caption == AddLabel || v.caption == RemoveLabel
    ensures st.settings.mode != Phrases ==> v.added == prev.added && v.caption == AddLabel
    ensures st.settings.mode == Phrases ==>
      (v.added <==> |NormalizePhrase(phrase)| > 0 && NormalizePhrase(phrase) in st.phraseSet)
      && (v.caption == RemoveLabel <==> v.added)
  {
    var key := NormalizePhrase(phrase);
    var hits := PhraseMinusHits(st, phrase);
    assert |hits| > 0 ==> hits[0] in hits;
    var warn := |hits| > 0;
    if st.settings.mode != Phrases then PhraseView(warn, AddLabel, true, prev.added)
    else if |key| > 0 && key in st.phraseSet then PhraseView(warn, RemoveLabel, false, true)
    else PhraseView(warn, AddLabel, false, false)
  }

  /** Refreshing a phrase view twice gives what refreshing it once gives. */
  lemma LemmaUpdatePhraseViewIdempotent(prev: PhraseView, st: State, phrase: string)
    ensures UpdatePhraseView(UpdatePhraseView(prev, st, phrase), st, phrase) == UpdatePhraseView(prev, st, phrase)
  {
  }

  // ---------------------------------------------------------------------
  // Keyboard and settings events
  // ---------------------------------------------------------------------

  /** The events that touch the Shift flag or the settings. `KeyDown` and
      `KeyUp` carry whether the key is Shift. */
  datatype Event =
    | KeyDown(isShift: bool)
    | KeyUp(isShift: bool)
    | Blur
    | SetShiftHotkey(on: bool)
    | SetMode(mode: Mode)
    | SetStripPlus(on: bool)
    | SetBangPrefix(on: bool)
    | SetPlusPrefix(on: bool)

  /** The Shift flag can only be set while the hotkey is enabled. */
  ghost predicate ShiftConsistent(st: State) {
    st.shiftDown ==> st.settings.shiftHotkeyEnabled
  }

  /** The handlers of content.js:1048-1068 (keyboard) and 424-494 (mode
      buttons and settings checkboxes). */
  function Handle(st: State, e: Event): (r: State)
    ensures r.phrases == st.phrases && r.minusWords == st.minusWords
    ensures r.phraseSet == st.phraseSet && r.minusSet == st.minusSet && r.minusToStored == st.minusToStored
    ensures r.settings.dontAskUntilPhrasesCleared == st.settings.dontAskUntilPhrasesCleared
    ensures e.KeyDown? ==> (r.shiftDown <==> st.shiftDown || (e.isShift && st.settings.shiftHotkeyEnabled && st.settings.mode == Phrases))
    ensures e.KeyUp? ==> (r.shiftDown <==> st.shiftDown && !e.isShift)
    ensures e == Blur ==> !r.shiftDown
    ensures e.SetShiftHotkey? ==> r.settings.shiftHotkeyEnabled == e.on && (r.shiftDown <==> st.shiftDown && e.on)
    ensures e.SetMode? ==> r.settings.mode == e.mode && r.shiftDown == st.shiftDown
    ensures e.KeyDown? || e.KeyUp? || e == Blur ==> r.settings == st.settings
    ensures e.SetShiftHotkey? ==> r.settings == st.settings.(shiftHotkeyEnabled := e.on)
    ensures e.SetMode? ==> r.settings == st.settings.(mode := e.mode)
    ensures e.SetStripPlus? ==> r.settings == st.settings.(stripPlusInPhrases := e.on) && r.shiftDown == st.shiftDown
    ensures e.SetBangPrefix? ==> r.settings == st.settings.(addBangPrefix := e.on) && r.shiftDown == st.shiftDown
    ensures e.SetPlusPrefix? ==> r.settings == st.settings.(addPlusPrefix := e.on) && r.shiftDown == st.shiftDown
    ensures ShiftConsistent(st) ==> ShiftConsistent(r)
    ensures Valid(st) ==> Valid(r)
  {
    match e
    case KeyDown(isShift) =>
      if !st.settings.shiftHotkeyEnabled then st
      else if st.settings.mode != Phrases then st
      else if isShift && !st.shiftDown then st.(shiftDown := true)
      else st
    case KeyUp(isShift) =>
      if isShift && st.shiftDown then st.(shiftDown := false) else st
    case Blur =>
      if st.shiftDown then st.(shiftDown := false) else st
    case SetShiftHotkey(on) =>
      var s1 := st.(settings := st.settings.(shiftHotkeyEnabled := on));
      if !on && s1.shiftDown then s1.(shiftDown := false) else s1
    case SetMode(m) => st.(settings := st.settings.(mode := m))
    case SetStripPlus(on) => st.(settings := st.settings.(stripPlusInPhrases := on))
    case SetBangPrefix(on) => st.(settings := st.settings.(addBangPrefix := on))
    case SetPlusPrefix(on) => st.(settings := st.settings.(addPlusPrefix := on))
  }

  /** Runs a sequence of events. */
  function HandleAll(st: State, es: seq<Event>): (r: State)
    ensures ShiftConsistent(st) ==> ShiftConsistent(r)
    ensures Valid(st) ==> Valid(r)
    ensures r.phrases == st.phrases && r.minusWords == st.minusWords
    decreases |es|
  {
    if |es| == 0 then st else HandleAll(Handle(st, es[0]), es[1..])
  }

  /** With the hotkey disabled, no sequence of events can make the effective
      mode differ from the base mode. */
  lemma {:induction false} LemmaHotkeyOffMeansBaseMode(st: State, es: seq<Event>)
    requires ShiftConsistent(st) && !st.settings.shiftHotkeyEnabled
    requires forall i :: 0 <= i < |es| ==> !es[i].SetShiftHotkey?
    ensures EffectiveMode(HandleAll(st, es)) == HandleAll(st, es).settings.mode
    ensures !HandleAll(st, es).shiftDown
    decreases |es|
  {
    if |es| > 0 {
      var s1 := Handle(st, es[0]);
      assert forall i :: 0 <= i < |es[1..]| ==> !es[1..][i].SetShiftHotkey? by {
        forall i | 0 <= i < |es[1..]| ensures !es[1..][i].SetShiftHotkey? {
          assert es[1..][i] == es[i + 1];
        }
      }
      LemmaHotkeyOffMeansBaseMode(s1, es[1..]);
    }
  }

  /** Changing the strip-plus setting changes how tokens are shown, never
      whether they are selected. */
  lemma LemmaStripPlusKeepsSelection(prev: TokenView, st: State, raw: string, on: bool)
    ensures UpdateTokenView(prev, Handle(st, SetStripPlus(on)), raw).selected == UpdateTokenView(prev, st, raw).selected
  {
  }
}
